=== FILE: README.md ===
# Group chat: a verified model

The system is a small group-chat web application. Users register and sign in
against a credential route. Messages go to a message route that keeps the
latest 1000 and serves a page of 100. A chat view polls that route, keeps a
local copy for offline use, earns credits and spends them in a colour shop.
It derives mention and reply notifications and forwards `@gemini` messages
to an AI responder. A top-level component restores the stored session at
start-up.

The model keeps the behaviour that sits under the React and Next.js layers.
Every network result, clock value, random id, hash and AI answer is a
parameter.

| file | module | models |
|---|---|---|
| `types.dfy` | `Types` | the records of `types.ts`, with `Option` for optional fields |
| `strings.dfy` | `Strings` | `trim`, `length`, lower-casing and `includes` as the code uses them |
| `constants.dfy` | `Constants` | the shop catalogue and `getApiUrl` |
| `login_view.dfy` | `LoginView` | the password meter, the registration and login checks, and the form class |
| `users_route.dfy` | `UsersRoute` | the credential route, as a class over a `map` from id to row |
| `chat_route.dfy` | `ChatRoute` | the message route: row codec, insert, retention prune and page, as a class over a timestamp-ordered `seq` |
| `chat_updates.dfy` | `ChatUpdates` | the pure `prev => next` updaters of the chat view and the notification derivation |
| `chat_view.dfy` | `ChatView` | the chat view's state and handlers, as a class |
| `app.dfy` | `App` | the session restore at start-up, login, logout and profile update, as a class |

Where the documented behaviour and the code differ, the model follows the
code. The classes model the code as written, and each gap is recorded under
"Findings" with a corrected definition beside it. Three places are worth
knowing:

- The message route's `GET` returns the 100 *oldest* retained rows, as the
  query at `app/api/chat/route.ts:55` is written. The application is
  described as serving the most recent messages. `MessageTable.Get` follows
  the code.
- The password meter scores the password as typed. The registration check
  and the request use the trimmed password.
- After a verify request, the start-up effect opens the chat view even when
  the server refused the token.

## Model

| member | source | states |
|---|---|---|
| Constants.ShopItems | constants.ts:19-26 | six items on sale, each costing 10 credits, with pairwise distinct ids and distinct colour classes |
| Constants.GetApiUrl | constants.ts:30-36 | the URL always ends with the endpoint; without a window, or with an absent or empty base, it is the endpoint alone; a base without a trailing slash is prefixed whole; a base with one loses exactly that slash |
| Constants.OneSlashRemoved | constants.ts:34 | a base ending in "//" keeps one slash before the endpoint |
| Strings.Trim | components/LoginView.tsx:77-79 | the trimmed string is no longer than the input and has no white space at either end |
| Strings.TrimCutsBlankEnds | components/LoginView.tsx:77-79 | the input is a white-space prefix, then the trimmed string, then a white-space suffix |
| Strings.TrimEmptyIffBlank | components/ChatView.tsx:201 | the trimmed string is empty exactly when the input is all white space |
| Strings.Utf16Length | components/LoginView.tsx:46 | `length` counts UTF-16 code units: no fewer than the characters and at most twice as many |
| Strings.Utf16LengthOne | components/LoginView.tsx:46 | a single character has length 1, or 2 when it lies above U+FFFF |
| Strings.Utf16LengthAppend | components/LoginView.tsx:46 | the length of a concatenation is the sum of the lengths, so every character above U+FFFF adds 2 and every other adds 1 |
| Strings.Utf16LengthOfBmp | components/LoginView.tsx:46 | on text without characters above U+FFFF, `length` is the number of characters |
| Strings.LowerAt | components/ChatView.tsx:227 | lower-casing maps every character in place, and only A-Z change |
| Strings.ContainsIffOccurs | components/ChatView.tsx:136 | the `includes` scan succeeds exactly when the needle occurs at some position of the text |
| LoginView.PasswordStrength | components/LoginView.tsx:36-64 | the score is between 0 and 3; it is 0 exactly when the password is shorter than 6 UTF-16 code units; at least 2 exactly when it has 6 or more code units, an ASCII letter and a digit; 3 exactly when it is at least 2 and the password has 10 or more code units or a character outside [a-zA-Z0-9] |
| LoginView.SurrogatePairsCountTwice | components/LoginView.tsx:46-60 | three emoji above U+FFFF have length 6 and score 1 (weak), not 0 |
| LoginView.PaddedStrength | components/LoginView.tsx:46-60 | the password "  ab1  " scores 3: it has 7 code units, a letter and a digit, and its blanks are special characters |
| LoginView.CheckRegistration | components/LoginView.tsx:81-104 | the checks run in order: a blank trimmed field fails first; then a trimmed id shorter than 5 UTF-16 code units; then a meter score below 2, reported as "too short" when the trimmed password is shorter than 6 code units and as "too weak" otherwise; the form submits exactly when all of them pass |
| LoginView.AcceptedPasswordIsMedium | components/LoginView.tsx:94-104 | when the meter is in step with the password, an accepted registration has a password, as typed, of 6 or more code units with a letter and a digit, and a trimmed id of at least 5 code units |
| LoginView.PaddedShortPasswordAccepted | components/LoginView.tsx:96 | the typed password "  ab1  " passes the strength check while the password sent is "ab1" |
| LoginView.CheckRegistrationTrimmed | components/LoginView.tsx:96-104 | corrected check: when it accepts, the password sent has 6 or more code units with a letter and a digit; it accepts exactly when the name is non-blank, the trimmed id has at least 5 code units and the trimmed password scores at least 2 |
| LoginView.CheckLogin | components/LoginView.tsx:147-154 | the login form submits exactly when the trimmed id and the trimmed password are both non-empty; otherwise it reports the missing-fields error |
| LoginView.NewUser | components/LoginView.tsx:110-118 | the new user has the trimmed id, name and password, 50 credits, the cyan name colour and no token |
| LoginView.ReplyError | components/LoginView.tsx:131-136 | a failed request always shows a non-empty message when the fallback is non-empty: the server's error text or the fallback, or the connection message when no reply came |
| LoginView.LoginForm.SetPassword | components/LoginView.tsx:36-64 | in register mode the meter is recomputed for the new password; in login mode it keeps its old value |
| LoginView.LoginForm.SetMode | components/LoginView.tsx:273-285 | switching tabs clears the error, and switching to register puts the meter back in step |
| LoginView.LoginForm.HandleRegister | components/LoginView.tsx:72-140 | a failed check shows its message and sends nothing; otherwise the new user is sent; an ok reply signs in the returned user; any other reply shows the server's error or the fallback text; the form is never left loading |
| LoginView.LoginForm.HandleLogin | components/LoginView.tsx:142-176 | a blank field shows the missing-fields message and sends nothing; otherwise the trimmed id and password are sent, and an ok reply signs in while any other reply shows its error; the form is never left loading |
| UsersRoute.PublicUser | app/api/users/route.ts:109-117 | the user sent back carries the row's id, name, avatar, colour, name colour and credits, no password and the given token |
| UsersRoute.UserTable.Register | app/api/users/route.ts:54-78 | an id shorter than 5 UTF-16 code units gets 400 and an existing id gets 400, both leaving the table unchanged; a missing password gets 500 with nothing changed; otherwise the row stores the hashed password and the fresh token, and the reply is the user with password "" and that token |
| UsersRoute.UserTable.Login | app/api/users/route.ts:81-120 | an unknown id gets 404; for a known id a missing password gets 500 with nothing changed; a password matching neither the stored hash nor the stored plain text gets 401, with nothing changed; on success the stored password becomes the hash of the input, the token is rotated, and from then on only the fresh token verifies |
| UsersRoute.UserTable.Verify | app/api/users/route.ts:123-143 | the reply is 200 exactly when the token is non-empty and is the one stored for the id; the user returned carries that stored token; an empty token gets "No token" and any other failure gets the expired-session error |
| UsersRoute.UserTable.Update | app/api/users/route.ts:146-157 | only the name, avatar, name colour and credits of the row with that id change, with no token check; an unknown id changes nothing; the reply is always 200 |
| UsersRoute.UserTable.Post | app/api/users/route.ts:50-165 | each action has its outcome: register answers 400 for a short or taken id and 500 for a missing password, all with the table unchanged, and otherwise inserts the enrolled row; login answers 404 for an unknown id, 500 for a missing password and 401 for a rejected one, all with the table unchanged, and otherwise stores the hashed password and the fresh token; verify answers 200 exactly when the session verifies and never changes the table; update always answers 200 and rewrites only the profile fields of an existing row; an unknown action gets 400 and changes nothing |
| ChatRoute.NullIfEmpty | app/api/chat/route.ts:93-96 | an absent or empty value becomes NULL, and any other value is kept |
| ChatRoute.Encode | app/api/chat/route.ts:86-102 | the row keeps the message's id, sender id and name, avatar, text, timestamp and AI flag; the colour and each reply field (id, name, text) are stored as sent, except that an empty one is stored as NULL; there is no reply row data without a reply |
| ChatRoute.Decode | app/api/chat/route.ts:58-72 | the message keeps the row's id, text and timestamp, and it has a reply snapshot exactly when `reply_to_id` is a non-empty string |
| ChatRoute.RoundTrip | app/api/chat/route.ts:58-101 | a message comes back from storage unchanged exactly when its colour is not "" and any reply snapshot has a non-empty id |
| ChatRoute.DecodeAll | app/api/chat/route.ts:58-72 | every row is mapped to its message, position by position |
| ChatRoute.InsertionIndex | app/api/chat/route.ts:99-102 | the new row goes after every row not later than it and before the first later one |
| ChatRoute.Insert | app/api/chat/route.ts:99-102 | an insert puts the new row at the insertion index, keeps the earlier rows in place and shifts the later rows by one |
| ChatRoute.InsertKeepsOrder | app/api/chat/route.ts:99-102 | inserting keeps the table in timestamp order |
| ChatRoute.InsertKeepsIdsDistinct | app/api/chat/route.ts:99-102 | inserting a row whose id is new keeps primary keys unique |
| ChatRoute.InsertAddsRow | app/api/chat/route.ts:99-102 | an insert adds exactly the new row, as a multiset |
| ChatRoute.Retain | app/api/chat/route.ts:104-117 | the prune keeps the last min(1000, n) rows |
| ChatRoute.RetainKeepsLatest | app/api/chat/route.ts:104-117 | the pruned table stays ordered and holds at most 1000 rows, and no pruned row is later than a kept one |
| ChatRoute.Page | app/api/chat/route.ts:55 | the page holds min(100, n) messages, decoded from the first rows in ascending timestamp order |
| ChatRoute.NewPostMissingFromPage | app/api/chat/route.ts:55 | with between 100 and 999 rows, posting a message later than all of them appends it to the table and leaves the page exactly as it was |
| ChatRoute.LatestPage | app/api/chat/route.ts:55 | corrected page: min(100, n) messages, decoded from the last rows, still in ascending order |
| ChatRoute.LatestPageShowsNewPost | app/api/chat/route.ts:55 | with the corrected page, a message posted later than every stored one is the last message served, and no row left off the page is later than one shown |
| ChatRoute.MessageTable.Get | app/api/chat/route.ts:19-81 | a failed query gets 500 with no messages; otherwise the reply is 200 with the page; the messages are in ascending order, and none is later than a row left out |
| ChatRoute.MessageTable.Post | app/api/chat/route.ts:83-126 | missing text or username gets 400 with the table unchanged; a failed insert or a duplicate id gets 500 with the table unchanged; otherwise the encoded row is inserted in order and pruned to 1000 rows, unless the prune fails, and the reply is success either way; the table stays ordered with unique ids |
| ChatUpdates.LastN | components/ChatView.tsx:68 | for n > 0 (the source uses 100 and 10), `slice(-n)` keeps the last min(n, length) elements |
| ChatUpdates.FirstN | components/ChatView.tsx:154 | `slice(0, n)` keeps the first min(n, length) elements |
| ChatUpdates.CacheEndsWithAppended | components/ChatView.tsx:65-73 | after an append, the cache is non-empty, ends with the appended message and holds min(100, n + 1) messages |
| ChatUpdates.ReconcileRemote | components/ChatView.tsx:90-102 | a successful poll keeps the current list exactly when it has the remote list's length and last id; otherwise it takes the remote list, empty or not |
| ChatUpdates.ReconcileRemoteIdempotent | components/ChatView.tsx:90-102 | polling the same remote list twice gives the same list as polling it once |
| ChatUpdates.ReconcileLocal | components/ChatView.tsx:104-113 | a failed poll keeps the shown list or adopts the cache, and the list is never shorter than either; a strictly longer cache is adopted |
| ChatUpdates.ReconcileLocalIsLongest | components/ChatView.tsx:108-113 | the empty-list test adds nothing: the cache is adopted exactly when it is strictly longer |
| ChatUpdates.RecentLines | components/ChatView.tsx:231 | the lines of the last k messages are empty exactly when k is 0 or there is no message |
| ChatUpdates.Context | components/ChatView.tsx:231 | the AI context is empty exactly when the conversation is |
| ChatUpdates.RecentLinesAreJoinedLines | components/ChatView.tsx:231 | the lines built from the newest backwards equal, for k > 0, `slice(-k)`, mapped to "name: text" and joined by newlines from the first forwards |
| ChatUpdates.ContextIsJoinedLines | components/ChatView.tsx:231 | the AI context is the "name: text" lines of the ten latest messages, oldest first, joined by newlines |
| ChatUpdates.RecentLinesIgnoreOlder | components/ChatView.tsx:231 | the context lines of the last k messages do not depend on older messages |
| ChatUpdates.ContextIsLatestTen | components/ChatView.tsx:231 | the AI context depends only on the ten latest messages before the send |
| ChatUpdates.SeenIds | components/ChatView.tsx:130 | the seen set holds exactly the message ids of the notifications in the list |
| ChatUpdates.NotificationOf | components/ChatView.tsx:132-149 | a message notifies exactly when it is not the user's own, is not yet notified, and mentions "@name" ignoring case or replies to the user's exact name; the notification is typed reply whenever it is a reply, is unread, is keyed "notif-" followed by the message id, and carries the message's id, sender, text and time |
| ChatUpdates.DerivedSound | components/ChatView.tsx:133-150 | every new notification comes from a message of the list, and there are no more of them than messages |
| ChatUpdates.DerivedUnseenUnread | components/ChatView.tsx:133-150 | every new notification is unread and is for a message that had no notification yet |
| ChatUpdates.DerivedComplete | components/ChatView.tsx:133-150 | every message that notifies has its notification among the new ones |
| ChatUpdates.DerivedDistinct | components/ChatView.tsx:133-150 | with unique message ids, no message gets two new notifications |
| ChatUpdates.NotifiedExactlyOnce | components/ChatView.tsx:125-159 | with unique message ids, a message that notifies gets exactly one new notification, and one that does not gets none |
| ChatUpdates.DerivedKeyedByMessage | components/ChatView.tsx:140-148 | every new notification is keyed "notif-" followed by its message id |
| ChatUpdates.KeySuffix | components/ChatView.tsx:140 | the message id is the key with "notif-" removed, so distinct messages give distinct keys |
| ChatUpdates.PrependKeepsDistinct | components/ChatView.tsx:125-159 | with unique message ids, the notification effect keeps the list keyed by message and without two entries for one message |
| ChatUpdates.MarkReadOnlyClicked | components/ChatView.tsx:269-272 | on such a list, marking an entry read changes that entry's read flag and no other entry |
| ChatUpdates.Reverse | components/ChatView.tsx:154 | the reversed list has the same elements, last first |
| ChatUpdates.Prepend | components/ChatView.tsx:152-156 | the new notifications, newest first, come before the old ones, and the list is cut to 50 |
| ChatUpdates.MarkRead | components/ChatView.tsx:272 | only the entries with the clicked id change, and only in their read flag |
| ChatView.MentionsAi | components/ChatView.tsx:227 | input shorter than "@gemini" never calls the AI |
| ChatView.MentionsAiIffOccurs | components/ChatView.tsx:227 | the AI is called exactly when "@gemini" occurs at some position of the lower-cased input |
| ChatView.AiMessage | components/ChatView.tsx:234-246 | the AI message is posted by "gemini-ai", is marked AI, quotes the user's message, and reads "..." when the responder gives no text |
| ChatView.UserMessage | components/ChatView.tsx:208-222 | the message has the given id and time, the sender's id, name, avatar and name colour, the trimmed text, is not an AI message, and carries the id, name and text of the reply target exactly when there is one |
| ChatView.ChatView.FetchMessages | components/ChatView.tsx:76-117 | a fetched list is reconciled and clears offline mode; a failed poll turns offline mode on and falls back to the cache without shrinking the list; a body without a list changes nothing; loading ends |
| ChatView.ChatView.SendMessageToApi | components/ChatView.tsx:170-197 | the message is appended and the cache becomes the last 100 messages, whatever the server answers |
| ChatView.ChatView.HandleSendMessage | components/ChatView.tsx:199-254 | blank input changes nothing: user, messages, cache, input, reply target and queue stay; otherwise credits go up by exactly 1 (none counts as 0), the user's message is appended and cached, and the input and reply target are cleared; an AI reply is queued exactly when the lower-cased input contains "@gemini", built from the ten latest messages before the send |
| ChatView.ChatView.SendTyped | components/ChatView.tsx:204-247 | the send past the blank guard: the credit, the message, the cleared input and reply target, and an AI reply queued exactly when the input mentions "@gemini" |
| ChatView.ChatView.QueueAiReply | components/ChatView.tsx:227-247 | the thinking indicator is on, and the AI answer to the input, given the pre-send context, is queued after the earlier ones |
| ChatView.ChatView.FireAiTimer | components/ChatView.tsx:249-252 | the oldest queued AI message is appended and cached, and the indicator turns off |
| ChatView.ChatView.RunNotificationEffect | components/ChatView.tsx:125-159 | the notifications derived from the messages against those already notified go first, newest first, capped at 50; the unread count grows by their number |
| ChatView.ChatView.HandleMessageClick | components/ChatView.tsx:261-267 | clicking the selected message clears the selection; clicking any other message selects it |
| ChatView.ChatView.FollowReply | components/ChatView.tsx:451-455 | clicking a reply snapshot with a non-empty id selects the quoted message; otherwise the selection stays |
| ChatView.ChatView.HandleReplyClick | components/ChatView.tsx:256-259 | the clicked message becomes the reply target |
| ChatView.ChatView.CancelReply | components/ChatView.tsx:527 | the reply target is cleared |
| ChatView.ChatView.AddAiTag | components/ChatView.tsx:551 | " @gemini " is appended to the input |
| ChatView.ChatView.HandleNotificationClick | components/ChatView.tsx:269-284 | every entry with the clicked id is marked read, and nothing else changes in the list (on a list keyed by message without duplicates that is the clicked entry alone, by `MarkReadOnlyClicked`); unread becomes max(0, unread - 1); the message is selected when it is on screen, and otherwise the too-old alert is raised |
| ChatView.ChatView.ClearNotifications | components/ChatView.tsx:745-747 | the button exists only while there are unread notifications: then the list is emptied and the unread count zeroed; otherwise nothing changes |
| ChatView.ChatView.HandleBuyColor | components/ChatView.tsx:344-357 | with credits at least the price, the price is paid and the colour taken; otherwise the user is unchanged; credits never go negative |
| ChatView.ChatView.PressBuyButton | components/ChatView.tsx:683-697 | the button of the colour being worn does nothing; any other button buys as `handleBuyColor` does |
| ChatView.ChatView.HandleSaveProfile | components/ChatView.tsx:317-327 | a blank name saves nothing; otherwise the trimmed name is saved, with the trimmed avatar address, or the old one when that is blank |
| App.Restore | App.tsx:16-65 | start-up opens the chat exactly when the stored snapshot has a token; a verified user is adopted; on a transport failure the snapshot is trusted; a refused token or an absent, unreadable or token-less snapshot leaves no user; the slot ends up holding exactly the signed-in user |
| App.ExpiredSessionShowsNothing | App.tsx:53-56 | a refused token ends in the chat view with no user, where the render at line 111 shows neither form nor chat |
| App.RestoreIntended | App.tsx:53-56 | corrected start-up: something is always shown, the chat opens exactly when there is a user, and the slot holds that user |
| App.RestoreIntendedAgrees | App.tsx:53-56 | the correction keeps the user and the slot, and differs from the code only for a refused token |
| App.App.Startup | App.tsx:16-65 | the session after start-up is the one `Restore` describes; a verify request carrying the snapshot's id and token is sent exactly when the snapshot has a token; the spinner ends |
| App.App.HandleLogin | App.tsx:67-72 | the user is adopted and stored, and the chat opens |
| App.App.HandleLogout | App.tsx:74-78 | the snapshot is deleted, the user cleared and the login view shown |
| App.App.HandleUpdateUser | App.tsx:80-95 | the update keeps the current session token over any token it carries; it is adopted and stored before it is pushed to the server |

## Left out

- Rendering, animations, modals, scroll handling, menus and the avatar picker. The conditions under which a button is shown or disabled are modelled in its handler (`ClearNotifications`, `PressBuyButton`); the rest holds no logic beyond the handlers modelled here.
- The AI responder is the `respond` parameter. Its own error-fallback text and the SDK call are not part of this model.
- SHA-256 is the table's `hash` function. The 32-byte session tokens, `Date.now()` and `Math.random()` ids and the random avatar and colour picks are parameters.
- Database failures on the message route are boolean parameters. Table creation, column migrations, CORS headers and `OPTIONS` handlers are left out.
- UsersRoute.UserTable.Post: a failing SELECT, INSERT or UPDATE on the credential route ends in the route's 500 reply (app/api/users/route.ts:161-164); the table's operations always succeed in the model, so that reply appears only for a missing password.
- UsersRoute.UserTable.Register, UsersRoute.UserTable.Login: a request body without `user`, or a login body whose `id` is missing, throws or queries NULL in the route; the model reads a missing string as "".
- The 3-second polling, the 1-second AI timer and overlapping async calls are atomic steps taken in a given order. The pending AI replies are a first-in, first-out queue.
- `localStorage` is a field. A stored value that does not parse as JSON is the `Unparsable` case of the session slot, or an empty message cache.
- Strings.Lower: lower-cases ASCII letters only, where `toLowerCase` follows Unicode.
- A JSON field that is absent from a request body is the empty string. A missing `isAi` is `false`, since `Message.isAi` is a plain boolean.
- SQL leaves the order of rows with equal timestamps open. The model places a new row after the rows with its timestamp.
- ChatRoute.Decode: a NULL reply snapshot name or text reads back as "", where the route returns `null` (app/api/chat/route.ts:68-69).
- ChatRoute.RoundTrip: a reply snapshot with an empty name or text is stored as NULL and comes back from the route as `null`; the model's round trip compares it as "".
- ChatView.ChatView.SendMessageToApi: a local storage write that fails (quota, privacy mode) is swallowed and leaves the stored copy as it was; the model always rewrites the cache.
- UsersRoute.UserTable.Register: a missing password makes hashing throw. The model returns the route's 500 reply for that case, with no finer detail. The same holds for a login with a missing password, which fails only after the account lookup.

## Findings

| source | as written | input that shows it | evidently intended | confidence | as-written member | corrected member |
|---|---|---|---|---|---|---|
| app/api/chat/route.ts:55 | the page is `ORDER BY timestamp ASC LIMIT 100`, the 100 oldest retained rows | a table of 100 to 999 rows, then a post later than all of them: the served page stays the same | serve the 100 latest rows, oldest first | high, not executed | ChatRoute.NewPostMissingFromPage | ChatRoute.LatestPageShowsNewPost |
| components/LoginView.tsx:96 | the strength check reads the meter, which scores the untrimmed password, while the trimmed one is sent | the password "  ab1  " scores 3, and "ab1" is registered | the sent password has at least 6 characters with a letter and a digit | medium, not executed | LoginView.PaddedShortPasswordAccepted | LoginView.CheckRegistrationTrimmed |
| App.tsx:54 | after any verify attempt the view becomes the chat because the parsed snapshot is truthy | a stored snapshot whose token the server refuses: chat view with no user, so the render at App.tsx:111 shows nothing | a refused session lands on the login form | high, not executed | App.ExpiredSessionShowsNothing | App.RestoreIntended |

=== FILE: app.dfy ===
/**
 * App.tsx: the session held by the top-level component. `stored` is the
 * local storage slot holding the signed-in user's snapshot; the server's
 * answer to the startup `verify` request is a parameter.
 */
module App {
  import opened Types

  /** What the session slot holds: nothing, text that is not a user
      object, or a user snapshot. */
  datatype Stored = Absent | Unparsable | Snapshot(user: User)

  /** How the startup `verify` request ended. `Verified` is a body with
      `success` and `user`; `Rejected` is any other JSON body (401 included);
      `TransportFailure` is a network error or a body that is not JSON. */
  datatype VerifyReply = Verified(user: User) | Rejected | TransportFailure

  /** The state the startup effect leaves behind. */
  datatype Session = Session(user: Option<User>, view: View, stored: Stored)

  /** The slot holds exactly the signed-in user. */
  predicate InStep(user: Option<User>, stored: Stored) {
    stored == if user.Some? then Snapshot(user.value) else Absent
  }

  /** Something is on screen: the login form, or the chat for a user. */
  predicate Shows(s: Session) {
    s.view == Login || s.user.Some?
  }

  /** A snapshot worth verifying: one with a non-empty token. */
  predicate HasToken(u: User) {
    u.token.Some? && u.token.value != ""
  }

  /**
   * The startup effect, from the mounted state (no user, login view), as
   * written: once a verify request has been sent the view becomes the chat
   * whatever the answer, because the snapshot just parsed is always truthy.
   */
  function Restore(stored: Stored, reply: VerifyReply): (s: Session)
    ensures s.view == Chat <==> stored.Snapshot? && HasToken(stored.user)
    ensures reply.Verified? && s.view == Chat ==> s.user == Some(reply.user)
    ensures reply.TransportFailure? && s.view == Chat ==> s.user == Some(stored.user)
    ensures s.user.Some? ==> s.view == Chat
    ensures reply.Rejected? || s.view == Login ==> s.user == None
    ensures InStep(s.user, s.stored)
  {
    match stored
    case Absent => Session(None, Login, Absent)
    case Unparsable => Session(None, Login, Absent)
    case Snapshot(u) =>
      if !HasToken(u) then Session(None, Login, Absent)
      else match reply
        case Verified(v) => Session(Some(v), Chat, Snapshot(v))
        case Rejected => Session(None, Chat, Absent)
        case TransportFailure => Session(Some(u), Chat, stored)
  }

  /** A stored session whose token the server refuses leaves the chat view
      without a user: neither the login form nor the chat is rendered. */
  lemma ExpiredSessionShowsNothing(u: User)
    requires HasToken(u)
    ensures Restore(Snapshot(u), Rejected) == Session(None, Chat, Absent)
    ensures !Shows(Restore(Snapshot(u), Rejected))
  {
  }

  /** The startup effect as evidently intended: the chat opens only for a
      user, so a refused token lands on the login form. */
  function RestoreIntended(stored: Stored, reply: VerifyReply): (s: Session)
    ensures Shows(s)
    ensures s.view == Chat <==> s.user.Some?
    ensures InStep(s.user, s.stored)
  {
    var r := Restore(stored, reply);
    if r.user.Some? then r else r.(view := Login)
  }

  /** The correction changes only the refused-token case. */
  lemma RestoreIntendedAgrees(stored: Stored, reply: VerifyReply)
    ensures RestoreIntended(stored, reply).user == Restore(stored, reply).user
    ensures RestoreIntended(stored, reply).stored == Restore(stored, reply).stored
    ensures RestoreIntended(stored, reply) != Restore(stored, reply) <==>
              stored.Snapshot? && HasToken(stored.user) && reply.Rejected?
  {
  }

  class App {
    var currentUser: Option<User>
    var currentView: View
    var isInitializing: bool
    var stored: Stored

    /** Mounting: no user, the login view, the spinner; the slot holds
        whatever an earlier visit left. */
    constructor (stored: Stored)
      ensures currentUser == None && currentView == Login && isInitializing
      ensures this.stored == stored
    {
      currentUser, currentView, isInitializing := None, Login, true;
      this.stored := stored;
    }

    /**
     * The startup effect. `verifyRequest` is the `(id, token)` pair sent
     * to the credential route, `None` when no request is made.
     */
    method Startup(reply: VerifyReply) returns (verifyRequest: Option<(string, string)>)
      requires currentUser == None && currentView == Login
      modifies this
      ensures !isInitializing
      ensures Session(currentUser, currentView, stored) == Restore(old(stored), reply)
      ensures InStep(currentUser, stored)
      ensures verifyRequest.Some? <==> old(stored).Snapshot? && HasToken(old(stored).user)
      ensures verifyRequest.Some? ==>
                verifyRequest.value == (old(stored).user.id, old(stored).user.token.value)
    {
      verifyRequest := None;
      match stored {
        case Absent =>
        case Unparsable =>
          stored := Absent;
        case Snapshot(parsed) =>
          if parsed.token == None || parsed.token == Some("") {
            stored := Absent;
          } else {
            verifyRequest := Some((parsed.id, parsed.token.value));
            match reply {
              case Verified(v) =>
                currentUser := Some(v);
                stored := Snapshot(v);
              case Rejected =>
                stored := Absent;
                currentUser := None;
              case TransportFailure =>
                currentUser := Some(parsed);
            }
            currentView := Chat;
          }
      }
      isInitializing := false;
    }

    /** `handleLogin`: adopt and store the user, open the chat. */
    method HandleLogin(user: User)
      modifies this`currentUser, this`currentView, this`stored
      ensures currentUser == Some(user) && currentView == Chat
      ensures stored == Snapshot(user) && InStep(currentUser, stored)
    {
      currentUser := Some(user);
      currentView := Chat;
      stored := Snapshot(user);
    }

    /** `handleLogout`: forget the snapshot and the user, show the form. */
    method HandleLogout()
      modifies this`currentUser, this`currentView, this`stored
      ensures currentUser == None && currentView == Login
      ensures stored == Absent && InStep(currentUser, stored)
    {
      stored := Absent;
      currentUser := None;
      currentView := Login;
    }

    /**
     * `handleUpdateUser`: the update keeps the current session token
     * whatever token the updated user carries; the result is stored and is
     * the `update` body pushed to the credential route.
     */
    method HandleUpdateUser(updated: User) returns (pushed: User)
      modifies this`currentUser, this`stored
      ensures pushed == updated.(token := if old(currentUser).Some? then old(currentUser).value.token else None)
      ensures currentUser == Some(pushed) && stored == Snapshot(pushed)
      ensures InStep(currentUser, stored)
      ensures old(currentUser).Some? ==> pushed.token == old(currentUser).value.token
    {
      var secureUser := updated.(token := if currentUser.Some? then currentUser.value.token else None);
      currentUser := Some(secureUser);
      stored := Snapshot(secureUser);
      pushed := secureUser;
    }
  }
}

=== FILE: chat_route.dfy ===
/**
 * app/api/chat/route.ts: the message log on the server. The `messages`
 * table is kept as a sequence in ascending timestamp order, the order every
 * query of the route reads it in; rows with equal timestamps keep their
 * insertion order (SQL leaves that order open).
 */
module ChatRoute {
  import opened Types

  /** A row of the `messages` table; `None` is SQL NULL. */
  datatype Row = Row(
    id: string,
    userId: string,
    username: string,
    avatar: Option<string>,
    text: string,
    timestamp: int,
    isAi: bool,
    replyToId: Option<string>,
    replyToUsername: Option<string>,
    replyToText: Option<string>,
    userColor: Option<string>)

  /** Rows kept after every insert. */
  const MaxRows: nat := 1000
  /** Rows returned by one GET. */
  const PageSize: nat := 100

  const MissingFieldsText: string := "Missing required fields"
  const SendFailedText: string := "Failed to send message"

  datatype PostResponse = PostResponse(status: int, error: Option<string>)

  datatype GetResponse = GetResponse(status: int, messages: seq<Message>)

  /** `value || null`: an absent or empty string is stored as NULL. */
  function NullIfEmpty(s: Option<string>): (r: Option<string>)
    ensures r == None <==> s == None || s == Some("")
    ensures r.Some? ==> r == s
  {
    if s == None || s == Some("") then None else s
  }

  /** The row POST inserts for a message body: the fields as sent, except
      that an empty colour or reply field is stored as NULL. */
  function Encode(m: Message): (row: Row)
    ensures row.id == m.id && row.text == m.text && row.timestamp == m.timestamp
    ensures row.userId == m.userId && row.username == m.username
    ensures row.avatar == m.avatar && row.isAi == m.isAi
    ensures row.userColor == NullIfEmpty(m.userColor)
    ensures m.replyTo == None ==> row.replyToId == row.replyToUsername == row.replyToText == None
    ensures m.replyTo.Some? ==>
              && row.replyToId == NullIfEmpty(Some(m.replyTo.value.id))
              && row.replyToUsername == NullIfEmpty(Some(m.replyTo.value.username))
              && row.replyToText == NullIfEmpty(Some(m.replyTo.value.text))
  {
    var reply := m.replyTo;
    Row(m.id, m.userId, m.username, m.avatar, m.text, m.timestamp, m.isAi,
        if reply.Some? then NullIfEmpty(Some(reply.value.id)) else None,
        if reply.Some? then NullIfEmpty(Some(reply.value.username)) else None,
        if reply.Some? then NullIfEmpty(Some(reply.value.text)) else None,
        NullIfEmpty(m.userColor))
  }

  /** The message GET builds from a row. `replyTo` exists exactly when
      `reply_to_id` is a non-empty string; a NULL snapshot field reads "". */
  function Decode(row: Row): (m: Message)
    ensures m.id == row.id && m.text == row.text && m.timestamp == row.timestamp
    ensures m.replyTo.Some? <==> row.replyToId.Some? && row.replyToId.value != ""
  {
    Message(row.id, row.userId, row.username, row.text, row.timestamp, row.isAi,
            row.avatar, row.userColor,
            if row.replyToId.Some? && row.replyToId.value != "" then
              Some(ReplyInfo(row.replyToId.value, row.replyToUsername.GetOr(""), row.replyToText.GetOr("")))
            else None)
  }

  /** A message comes back from POST and GET as it went in exactly when its
      colour is not the empty string and a reply snapshot has a non-empty id. */
  lemma {:induction false} RoundTrip(m: Message)
    ensures Decode(Encode(m)) == m <==>
              m.userColor != Some("") && (m.replyTo.Some? ==> m.replyTo.value.id != "")
  {
    var d := Decode(Encode(m));
    if m.userColor == Some("") {
      assert d.userColor == None;
    }
    if m.replyTo.Some? && m.replyTo.value.id == "" {
      assert d.replyTo == None;
    }
    if m.userColor != Some("") && (m.replyTo.Some? ==> m.replyTo.value.id != "") {
      if m.replyTo.Some? {
        var r := m.replyTo.value;
        assert r.username == NullIfEmpty(Some(r.username)).GetOr("");
        assert r.text == NullIfEmpty(Some(r.text)).GetOr("");
      }
    }
  }

  function DecodeAll(rows: seq<Row>): (ms: seq<Message>)
    ensures |ms| == |rows|
    ensures forall i :: 0 <= i < |rows| ==> ms[i] == Decode(rows[i])
  {
    seq(|rows|, i requires 0 <= i < |rows| => Decode(rows[i]))
  }

  predicate Sorted(rows: seq<Row>) {
    forall i, j :: 0 <= i < j < |rows| ==> rows[i].timestamp <= rows[j].timestamp
  }

  predicate DistinctIds(rows: seq<Row>) {
    forall i, j :: 0 <= i < j < |rows| ==> rows[i].id != rows[j].id
  }

  predicate HasId(rows: seq<Row>, id: string) {
    exists i :: 0 <= i < |rows| && rows[i].id == id
  }

  /** Where a row with timestamp `ts` goes: after the leading rows that are
      not later than it. */
  function InsertionIndex(rows: seq<Row>, ts: int): (k: nat)
    ensures k <= |rows|
    ensures forall i :: 0 <= i < k ==> rows[i].timestamp <= ts
    ensures k < |rows| ==> rows[k].timestamp > ts
  {
    if rows == [] || rows[0].timestamp > ts then 0
    else 1 + InsertionIndex(rows[1..], ts)
  }

  /** The table after an insert: the old rows up to the insertion index,
      the new row, then the rest of the old rows. */
  function Insert(rows: seq<Row>, row: Row): (s: seq<Row>)
    ensures var k := InsertionIndex(rows, row.timestamp);
      && |s| == |rows| + 1 && s[k] == row
      && (forall i :: 0 <= i < k ==> s[i] == rows[i])
      && (forall i :: k < i < |s| ==> s[i] == rows[i - 1])
  {
    var k := InsertionIndex(rows, row.timestamp);
    rows[..k] + [row] + rows[k..]
  }

  /** Inserting keeps the table in timestamp order. */
  lemma {:induction false} InsertKeepsOrder(rows: seq<Row>, row: Row)
    requires Sorted(rows)
    ensures Sorted(Insert(rows, row))
  {
    var k, s := InsertionIndex(rows, row.timestamp), Insert(rows, row);
    forall i, j | 0 <= i < j < |s|
      ensures s[i].timestamp <= s[j].timestamp
    {
      if j < k {
        assert s[i] == rows[i] && s[j] == rows[j];
      } else if j == k {
        assert s[i] == rows[i];
      } else if i == k {
        assert s[j] == rows[j - 1] && rows[k].timestamp <= rows[j - 1].timestamp;
      } else if i < k {
        assert s[i] == rows[i] && s[j] == rows[j - 1];
      } else {
        assert s[i] == rows[i - 1] && s[j] == rows[j - 1];
      }
    }
  }

  /** Inserting a row with a fresh id keeps ids unique. */
  lemma {:induction false} InsertKeepsIdsDistinct(rows: seq<Row>, row: Row)
    requires DistinctIds(rows) && !HasId(rows, row.id)
    ensures DistinctIds(Insert(rows, row))
  {
    var k, s := InsertionIndex(rows, row.timestamp), Insert(rows, row);
    forall i, j | 0 <= i < j < |s|
      ensures s[i].id != s[j].id
    {
      if i == k {
        assert rows[j - 1].id != row.id;
      } else if j == k {
        assert rows[i].id != row.id;
      }
    }
  }

  /** Inserting adds exactly the new row. */
  lemma {:induction false} InsertAddsRow(rows: seq<Row>, row: Row)
    ensures multiset(Insert(rows, row)) == multiset(rows) + multiset{row}
  {
    var k := InsertionIndex(rows, row.timestamp);
    assert rows == rows[..k] + rows[k..];
  }

  /** The retention prune: the `MaxRows` latest rows remain. */
  function Retain(rows: seq<Row>): (kept: seq<Row>)
    ensures |kept| == if |rows| <= MaxRows then |rows| else MaxRows
    ensures kept == rows[|rows| - |kept|..]
  {
    if |rows| <= MaxRows then rows else rows[|rows| - MaxRows..]
  }

  /** No pruned row is later than a kept one. */
  lemma {:induction false} RetainKeepsLatest(rows: seq<Row>)
    requires Sorted(rows)
    ensures Sorted(Retain(rows)) && |Retain(rows)| <= MaxRows
    ensures forall i, j :: 0 <= i < |rows| - |Retain(rows)| <= j < |rows| ==>
              rows[i].timestamp <= rows[j].timestamp
  {
  }

  /** The rows one GET returns, as written: the first `PageSize` in
      ascending timestamp order, that is the oldest retained rows. */
  function Page(rows: seq<Row>): (ms: seq<Message>)
    ensures |ms| == if |rows| < PageSize then |rows| else PageSize
    ensures forall i :: 0 <= i < |ms| ==> ms[i] == Decode(rows[i])
  {
    DecodeAll(rows[..if |rows| < PageSize then |rows| else PageSize])
  }

  /** Once the table holds a full page and is below the retention limit, a
      newly posted message (no earlier than any stored one) leaves the page
      exactly as it was: no client ever polls it. */
  lemma {:induction false} NewPostMissingFromPage(rows: seq<Row>, row: Row)
    requires PageSize <= |rows| < MaxRows
    requires forall i :: 0 <= i < |rows| ==> rows[i].timestamp <= row.timestamp
    ensures Retain(Insert(rows, row)) == rows + [row]
    ensures Page(Retain(Insert(rows, row))) == Page(rows)
  {
    var k := InsertionIndex(rows, row.timestamp);
    assert k == |rows|;
    assert rows[..k] == rows && rows[k..] == [];
    assert (rows + [row])[..PageSize] == rows[..PageSize];
  }

  /** The page as evidently intended: the `PageSize` latest rows, still in
      ascending timestamp order. */
  function LatestPage(rows: seq<Row>): (ms: seq<Message>)
    ensures |ms| == if |rows| < PageSize then |rows| else PageSize
    ensures forall i :: |rows| - |ms| <= i < |rows| ==> ms[i - (|rows| - |ms|)] == Decode(rows[i])
  {
    DecodeAll(rows[|rows| - (if |rows| < PageSize then |rows| else PageSize)..])
  }

  /** With the intended page, the message just posted is the last one every
      client sees, and no row left out is later than a row shown. */
  lemma {:induction false} LatestPageShowsNewPost(rows: seq<Row>, row: Row)
    requires Sorted(rows)
    requires forall i :: 0 <= i < |rows| ==> rows[i].timestamp <= row.timestamp
    ensures var page := LatestPage(Retain(Insert(rows, row)));
      page != [] && page[|page| - 1] == Decode(row)
    ensures var after := Retain(Insert(rows, row));
      forall i, j :: 0 <= i < |after| - |LatestPage(after)| <= j < |after| ==>
        after[i].timestamp <= after[j].timestamp
  {
    var k := InsertionIndex(rows, row.timestamp);
    assert k == |rows|;
    assert rows[..k] == rows && rows[k..] == [];
    var ins := Insert(rows, row);
    assert ins == rows + [row];
    InsertKeepsOrder(rows, row);
    RetainKeepsLatest(ins);
    var after := Retain(ins);
    assert after[|after| - 1] == row;
  }

  class MessageTable {
    var rows: seq<Row>

    ghost predicate Valid()
      reads this
    {
      Sorted(rows) && DistinctIds(rows)
    }

    constructor ()
      ensures Valid() && rows == []
    {
      rows := [];
    }

    /**
     * `GET`: the first `PageSize` rows in ascending timestamp order, that is
     * the OLDEST retained rows. `queryFails` stands for a database error.
     */
    method Get(queryFails: bool) returns (r: GetResponse)
      requires Valid()
      ensures queryFails ==> r == GetResponse(500, [])
      ensures !queryFails ==> r == GetResponse(200, Page(rows))
      ensures forall i, j :: 0 <= i < j < |r.messages| ==> r.messages[i].timestamp <= r.messages[j].timestamp
      ensures forall i, j :: 0 <= i < |r.messages| <= j < |rows| ==> r.messages[i].timestamp <= rows[j].timestamp
    {
      if queryFails {
        return GetResponse(500, []);
      }
      r := GetResponse(200, Page(rows));
    }

    /**
     * `POST`: reject a body without text or username, insert the row, then
     * prune to `MaxRows`. `insertFails` stands for a database error other
     * than a duplicate id; a failing prune (`pruneFails`) is ignored.
     */
    method Post(body: Message, insertFails: bool, pruneFails: bool) returns (r: PostResponse)
      requires Valid()
      modifies this
      ensures Valid()
      ensures body.text == "" || body.username == "" ==>
                r == PostResponse(400, Some(MissingFieldsText)) && rows == old(rows)
      ensures body.text != "" && body.username != "" && (insertFails || HasId(old(rows), body.id)) ==>
                r == PostResponse(500, Some(SendFailedText)) && rows == old(rows)
      ensures body.text != "" && body.username != "" && !insertFails && !HasId(old(rows), body.id) ==>
                && r == PostResponse(200, None)
                && rows == (if pruneFails then Insert(old(rows), Encode(body))
                            else Retain(Insert(old(rows), Encode(body))))
    {
      if body.text == "" || body.username == "" {
        return PostResponse(400, Some(MissingFieldsText));
      }
      var row := Encode(body);
      if insertFails || HasId(rows, body.id) {
        return PostResponse(500, Some(SendFailedText));
      }
      InsertKeepsOrder(rows, row);
      InsertKeepsIdsDistinct(rows, row);
      rows := Insert(rows, row);
      if !pruneFails {
        RetainKeepsLatest(rows);
        rows := Retain(rows);
      }
      r := PostResponse(200, None);
    }
  }
}

=== FILE: chat_updates.dfy ===
/**
 * The pure parts of components/ChatView.tsx: the `prev => next` updaters the
 * view hands to React for its message list and notification list, the
 * `slice(-n)` cap of the local cache, and the mention/reply derivation.
 */
module ChatUpdates {
  import opened Types
  import opened Strings

  /** Messages kept in the local cache. */
  const CacheCap: nat := 100
  /** Notifications kept in the list. */
  const NotificationCap: nat := 50
  /** Messages handed to the AI responder as context. */
  const ContextSize: nat := 10

  /** `s.slice(-n)` for n > 0: the last `n` elements, or all of `s`. */
  function LastN<T>(s: seq<T>, n: nat): (r: seq<T>)
    ensures |r| == if |s| < n then |s| else n
    ensures r == s[|s| - |r|..]
  {
    if |s| < n then s else s[|s| - n..]
  }

  /** `s.slice(0, n)`: the first `n` elements, or all of `s`. */
  function FirstN<T>(s: seq<T>, n: nat): (r: seq<T>)
    ensures |r| == if |s| < n then |s| else n
    ensures r == s[..|r|]
  {
    if |s| < n then s else s[..n]
  }

  /** Appending and re-caching: the cache ends with the appended element. */
  lemma {:induction false} CacheEndsWithAppended<T>(s: seq<T>, x: T)
    ensures LastN(s + [x], CacheCap) != []
    ensures LastN(s + [x], CacheCap)[|LastN(s + [x], CacheCap)| - 1] == x
    ensures |LastN(s + [x], CacheCap)| == if |s| < CacheCap then |s| + 1 else CacheCap
  {
    var t := s + [x];
    assert t[|t| - 1] == x;
  }

  // ---------------------------------------------------------------------------
  // Poll reconciliation

  /** Two lists agree on the cheap check: equal length and, when non-empty,
      the same id at the end. */
  predicate SameTail(a: seq<Message>, b: seq<Message>) {
    |a| == |b| && (a != [] ==> a[|a| - 1].id == b[|b| - 1].id)
  }

  /** The updater of a successful poll: keep the current list when it passes
      the tail check against the remote one, otherwise take the remote list. */
  function ReconcileRemote(prev: seq<Message>, remote: seq<Message>): (r: seq<Message>)
    ensures r == prev || r == remote
    ensures SameTail(r, remote)
    ensures SameTail(prev, remote) ==> r == prev
    ensures !SameTail(prev, remote) ==> r == remote
  {
    if |prev| > 0 && |remote| > 0 then
      var lastPrev, lastNew := prev[|prev| - 1], remote[|remote| - 1];
      if lastPrev.id == lastNew.id && |prev| == |remote| then prev else remote
    else remote
  }

  /** Polling the same remote list again changes nothing. */
  lemma {:induction false} ReconcileRemoteIdempotent(prev: seq<Message>, remote: seq<Message>)
    ensures ReconcileRemote(ReconcileRemote(prev, remote), remote) == ReconcileRemote(prev, remote)
  {
    var r := ReconcileRemote(prev, remote);
    assert SameTail(r, remote);
  }

  /** The updater of a failed poll: fall back to the cache when the view is
      empty and the cache is not, or when the cache is strictly longer. */
  function ReconcileLocal(prev: seq<Message>, local: seq<Message>): (r: seq<Message>)
    ensures r == prev || r == local
    ensures |r| >= |prev| && |r| >= |local|
    ensures |local| > |prev| ==> r == local
  {
    if |prev| == 0 && |local| > 0 then local
    else if |local| > |prev| then local
    else prev
  }

  /** The first test of the fallback adds nothing to the second: the cache is
      adopted exactly when it is strictly longer. */
  lemma {:induction false} ReconcileLocalIsLongest(prev: seq<Message>, local: seq<Message>)
    ensures ReconcileLocal(prev, local) == if |local| > |prev| then local else prev
  {
    if |prev| == 0 && |local| > 0 {
      assert |local| > |prev|;
    }
  }

  // ---------------------------------------------------------------------------
  // AI context

  function ContextLine(m: Message): string {
    m.username + ": " + m.text
  }

  /** The `username: text` lines of the last `k` messages, oldest first,
      joined by newlines, built from the newest line backwards. Every line
      holds ": ", so the text is empty exactly when there is no line. */
  function RecentLines(messages: seq<Message>, k: nat): (r: string)
    ensures r == "" <==> k == 0 || messages == []
    decreases k
  {
    if k == 0 || messages == [] then ""
    else if k == 1 || |messages| == 1 then ContextLine(messages[|messages| - 1])
    else RecentLines(messages[..|messages| - 1], k - 1) + "\n" + ContextLine(messages[|messages| - 1])
  }

  /** The context handed to the AI: the lines of the ten latest messages.
      It is empty only for an empty conversation. */
  function Context(messages: seq<Message>): (r: string)
    ensures r == "" <==> messages == []
  {
    RecentLines(messages, ContextSize)
  }

  /** `lines.join(sep)`, built from the first line forwards. */
  function Join(lines: seq<string>, sep: string): string {
    if lines == [] then ""
    else if |lines| == 1 then lines[0]
    else lines[0] + sep + Join(lines[1..], sep)
  }

  /** `messages.map(m => `${m.username}: ${m.text}`)` */
  function Lines(messages: seq<Message>): (ls: seq<string>)
    ensures |ls| == |messages|
  {
    seq(|messages|, i requires 0 <= i < |messages| => ContextLine(messages[i]))
  }

  /** Joining one more line adds the separator and that line at the end. */
  lemma {:induction false} JoinSnoc(lines: seq<string>, x: string, sep: string)
    requires lines != []
    ensures Join(lines + [x], sep) == Join(lines, sep) + sep + x
    decreases |lines|
  {
    var all := lines + [x];
    if |lines| == 1 {
      assert all[1..] == [x];
    } else {
      assert all[1..] == lines[1..] + [x];
      JoinSnoc(lines[1..], x, sep);
      calc {
        Join(all, sep);
        lines[0] + sep + Join(lines[1..] + [x], sep);
        lines[0] + sep + (Join(lines[1..], sep) + sep + x);
        (lines[0] + sep + Join(lines[1..], sep)) + sep + x;
      }
    }
  }

  /** Taking the last `k` of a list with one more element at the end. */
  lemma LastNSnoc<T>(init: seq<T>, last: T, k: nat)
    requires k >= 1
    ensures LastN(init + [last], k) == LastN(init, k - 1) + [last]
  {
    var all := init + [last];
    if |init| >= k - 1 {
      assert all[|all| - k..] == init[|init| - (k - 1)..] + [last];
    }
  }

  lemma LinesSnoc(messages: seq<Message>, last: Message)
    ensures Lines(messages + [last]) == Lines(messages) + [ContextLine(last)]
  {
    var all := messages + [last];
    assert forall i :: 0 <= i < |messages| ==> all[i] == messages[i];
  }

  /** The backward construction agrees with the source's pipeline
      `slice(-k).map(line).join('\n')`. */
  lemma {:induction false} RecentLinesAreJoinedLines(messages: seq<Message>, k: nat)
    ensures RecentLines(messages, k) == Join(Lines(LastN(messages, k)), "\n")
    decreases k
  {
    if k == 0 || messages == [] {
      RecentLinesNone(messages, k);
    } else if k == 1 || |messages| == 1 {
      RecentLinesOne(messages, k);
    } else {
      RecentLinesAreJoinedLines(messages[..|messages| - 1], k - 1);
      RecentLinesStep(messages, k);
    }
  }

  /** No line: both sides are empty. */
  lemma RecentLinesNone(messages: seq<Message>, k: nat)
    requires k == 0 || messages == []
    ensures RecentLines(messages, k) == ""
    ensures Join(Lines(LastN(messages, k)), "\n") == ""
  {
    assert LastN(messages, k) == [];
  }

  /** One line, no separator. */
  lemma RecentLinesOne(messages: seq<Message>, k: nat)
    requires k >= 1 && messages != [] && (k == 1 || |messages| == 1)
    ensures RecentLines(messages, k) == ContextLine(messages[|messages| - 1])
    ensures Join(Lines(LastN(messages, k)), "\n") == ContextLine(messages[|messages| - 1])
  {
    var last := messages[|messages| - 1];
    assert LastN(messages, k) == [last];
    assert Lines([last]) == [ContextLine(last)];
  }

  /** The inductive step: one more line at the end on both sides. */
  lemma RecentLinesStep(messages: seq<Message>, k: nat)
    requires k >= 2 && |messages| >= 2
    requires var init := messages[..|messages| - 1];
      RecentLines(init, k - 1) == Join(Lines(LastN(init, k - 1)), "\n")
    ensures RecentLines(messages, k) == Join(Lines(LastN(messages, k)), "\n")
  {
    var init, last := messages[..|messages| - 1], messages[|messages| - 1];
    var tail, line := LastN(init, k - 1), ContextLine(last);
    assert RecentLines(messages, k) == RecentLines(init, k - 1) + "\n" + line;
    assert messages == init + [last];
    LastNSnoc(init, last, k);
    LinesSnoc(tail, last);
    assert Lines(LastN(messages, k)) == Lines(tail) + [line];
    JoinSnoc(Lines(tail), line, "\n");
  }

  /** The context is the lines of the ten latest messages, oldest first,
      joined by newlines. */
  lemma ContextIsJoinedLines(messages: seq<Message>)
    ensures Context(messages) == Join(Lines(LastN(messages, ContextSize)), "\n")
  {
    RecentLinesAreJoinedLines(messages, ContextSize);
  }

  /** Only the `k` latest messages shape their lines: older ones in front
      change nothing. */
  lemma {:induction false} RecentLinesIgnoreOlder(older: seq<Message>, messages: seq<Message>, k: nat)
    requires |messages| >= k
    ensures RecentLines(older + messages, k) == RecentLines(messages, k)
    decreases k
  {
    var all := older + messages;
    if k > 1 && |messages| > 1 {
      assert all[..|all| - 1] == older + messages[..|messages| - 1];
      RecentLinesIgnoreOlder(older, messages[..|messages| - 1], k - 1);
    }
    if k > 0 {
      assert all[|all| - 1] == messages[|messages| - 1];
    }
  }

  /** The AI sees the ten latest messages and nothing older. */
  lemma ContextIsLatestTen(older: seq<Message>, messages: seq<Message>)
    requires |messages| >= ContextSize
    ensures Context(older + messages) == Context(messages)
  {
    RecentLinesIgnoreOlder(older, messages, ContextSize);
  }

  // ---------------------------------------------------------------------------
  // Notifications

  /** The text contains `@` followed by the user's name, ignoring case. */
  predicate IsMention(m: Message, me: User) {
    Contains(Lower(m.text), Lower("@" + me.username))
  }

  /** The message's reply snapshot names the user exactly. */
  predicate IsReplyTo(m: Message, me: User) {
    m.replyTo.Some? && m.replyTo.value.username == me.username
  }

  /** Ids of the messages the list already has a notification for: exactly
      the `messageId`s of its entries. */
  function SeenIds(notifications: seq<Notification>): (ids: set<string>)
    ensures forall i :: 0 <= i < |notifications| ==> notifications[i].messageId in ids
    ensures forall id :: id in ids ==> exists i :: 0 <= i < |notifications| && notifications[i].messageId == id
  {
    set n | n in notifications :: n.messageId
  }

  /** The notification one message yields: none for the user's own messages
      and for messages already notified; otherwise one exactly when it is a
      mention or a reply, of type reply whenever it is a reply, keyed
      `notif-` followed by the message id. */
  function NotificationOf(m: Message, seen: set<string>, me: User): (r: Option<Notification>)
    ensures r.Some? <==> m.userId != me.id && m.id !in seen && (IsMention(m, me) || IsReplyTo(m, me))
    ensures r.Some? ==> r.value.kind == (if IsReplyTo(m, me) then Reply else Mention)
    ensures r.Some? ==> r.value.id == "notif-" + m.id
    ensures r.Some? ==> r.value.messageId == m.id && r.value.senderName == m.username
    ensures r.Some? ==> r.value.text == m.text && r.value.timestamp == m.timestamp && !r.value.isRead
  {
    if m.userId == me.id || m.id in seen then None
    else
      var isMention, isReply := IsMention(m, me), IsReplyTo(m, me);
      if isMention || isReply then
        Some(Notification("notif-" + m.id, m.id, m.username,
                          if isReply then Reply else Mention, m.text, m.timestamp, false))
      else None
  }

  function AsSeq<T>(o: Option<T>): seq<T> {
    if o.Some? then [o.value] else []
  }

  /** `newNotifications` after the `forEach`: one entry per notifying message,
      in message order. */
  function Derived(msgs: seq<Message>, seen: set<string>, me: User): seq<Notification>
  {
    if msgs == [] then []
    else Derived(msgs[..|msgs| - 1], seen, me) + AsSeq(NotificationOf(msgs[|msgs| - 1], seen, me))
  }

  predicate DistinctMessageIds(msgs: seq<Message>) {
    forall i, j :: 0 <= i < j < |msgs| ==> msgs[i].id != msgs[j].id
  }

  predicate DistinctNotified(ns: seq<Notification>) {
    forall i, j :: 0 <= i < j < |ns| ==> ns[i].messageId != ns[j].messageId
  }

  /** Every derived notification comes from a message of the list. */
  lemma {:induction false} DerivedSound(msgs: seq<Message>, seen: set<string>, me: User)
    ensures |Derived(msgs, seen, me)| <= |msgs|
    ensures forall k :: 0 <= k < |Derived(msgs, seen, me)| ==>
              exists j :: 0 <= j < |msgs| && NotificationOf(msgs[j], seen, me) == Some(Derived(msgs, seen, me)[k])
  {
    if msgs != [] {
      var init := msgs[..|msgs| - 1];
      DerivedSound(init, seen, me);
      var d := Derived(msgs, seen, me);
      forall k | 0 <= k < |d|
        ensures exists j :: 0 <= j < |msgs| && NotificationOf(msgs[j], seen, me) == Some(d[k])
      {
        if k < |Derived(init, seen, me)| {
          var j :| 0 <= j < |init| && NotificationOf(init[j], seen, me) == Some(Derived(init, seen, me)[k]);
          assert msgs[j] == init[j];
        } else {
          assert NotificationOf(msgs[|msgs| - 1], seen, me) == Some(d[k]);
        }
      }
    }
  }

  /** The new notifications are unread and none is for a message the list
      already had a notification for. */
  lemma DerivedUnseenUnread(msgs: seq<Message>, seen: set<string>, me: User)
    ensures forall k :: 0 <= k < |Derived(msgs, seen, me)| ==>
              Derived(msgs, seen, me)[k].messageId !in seen && !Derived(msgs, seen, me)[k].isRead
  {
    DerivedSound(msgs, seen, me);
  }

  /** Every message that yields a notification has it among the derived ones. */
  lemma {:induction false} DerivedComplete(msgs: seq<Message>, seen: set<string>, me: User, j: int)
    requires 0 <= j < |msgs| && NotificationOf(msgs[j], seen, me).Some?
    ensures NotificationOf(msgs[j], seen, me).value in Derived(msgs, seen, me)
  {
    var init := msgs[..|msgs| - 1];
    if j < |msgs| - 1 {
      assert msgs[j] == init[j];
      DerivedComplete(init, seen, me, j);
    }
  }

  /** With unique message ids, no message is notified twice. */
  lemma {:induction false} DerivedDistinct(msgs: seq<Message>, seen: set<string>, me: User)
    requires DistinctMessageIds(msgs)
    ensures DistinctNotified(Derived(msgs, seen, me))
  {
    if msgs != [] {
      var init := msgs[..|msgs| - 1];
      var last := msgs[|msgs| - 1];
      assert DistinctMessageIds(init);
      DerivedDistinct(init, seen, me);
      DerivedSound(init, seen, me);
      var d0 := Derived(init, seen, me);
      forall k | 0 <= k < |d0|
        ensures d0[k].messageId != last.id
      {
        var j :| 0 <= j < |init| && NotificationOf(init[j], seen, me) == Some(d0[k]);
        assert msgs[j] == init[j];
      }
    }
  }

  /** The effect's outcome for one message, with unique message ids: the
      list gains one notification for it if it notifies, and none otherwise. */
  lemma NotifiedExactlyOnce(msgs: seq<Message>, seen: set<string>, me: User, j: int)
    requires DistinctMessageIds(msgs) && 0 <= j < |msgs|
    ensures var d := Derived(msgs, seen, me);
      && (NotificationOf(msgs[j], seen, me).None? ==> forall k :: 0 <= k < |d| ==> d[k].messageId != msgs[j].id)
      && (NotificationOf(msgs[j], seen, me).Some? ==>
            exists k :: 0 <= k < |d| && d[k] == NotificationOf(msgs[j], seen, me).value
                        && forall k' :: 0 <= k' < |d| && k' != k ==> d[k'].messageId != msgs[j].id)
  {
    var d := Derived(msgs, seen, me);
    DerivedSound(msgs, seen, me);
    DerivedDistinct(msgs, seen, me);
    forall k | 0 <= k < |d| && d[k].messageId == msgs[j].id
      ensures NotificationOf(msgs[j], seen, me) == Some(d[k])
    {
      var i :| 0 <= i < |msgs| && NotificationOf(msgs[i], seen, me) == Some(d[k]);
      assert msgs[i].id == msgs[j].id;
    }
    if NotificationOf(msgs[j], seen, me).Some? {
      DerivedComplete(msgs, seen, me, j);
      var k :| 0 <= k < |d| && d[k] == NotificationOf(msgs[j], seen, me).value;
    }
  }

  function Reverse<T>(s: seq<T>): (r: seq<T>)
    ensures |r| == |s|
    ensures forall i :: 0 <= i < |s| ==> r[i] == s[|s| - 1 - i]
  {
    if s == [] then [] else Reverse(s[1..]) + [s[0]]
  }

  /** The notifications updater: newest first, ahead of the old list, at
      most `NotificationCap` kept. */
  function Prepend(created: seq<Notification>, prev: seq<Notification>): (r: seq<Notification>)
    ensures |r| <= NotificationCap
    ensures |r| == if |created| + |prev| < NotificationCap then |created| + |prev| else NotificationCap
    ensures forall i :: 0 <= i < |r| && i < |created| ==> r[i] == created[|created| - 1 - i]
    ensures forall i :: |created| <= i < |r| ==> r[i] == prev[i - |created|]
  {
    FirstN(Reverse(created) + prev, NotificationCap)
  }

  /** Marking a notification read: only the entries with that id change, and
      only in their `isRead` flag. */
  function MarkRead(ns: seq<Notification>, id: string): (r: seq<Notification>)
    ensures |r| == |ns|
    ensures forall i :: 0 <= i < |ns| ==> r[i] == if ns[i].id == id then ns[i].(isRead := true) else ns[i]
  {
    seq(|ns|, i requires 0 <= i < |ns| => if ns[i].id == id then ns[i].(isRead := true) else ns[i])
  }

  // ---------------------------------------------------------------------------
  // Notification keys

  /** Every entry is keyed by its message: `id == "notif-" + messageId`. */
  predicate KeyedByMessage(ns: seq<Notification>) {
    forall i :: 0 <= i < |ns| ==> ns[i].id == "notif-" + ns[i].messageId
  }

  /** The message id can be read back from the key. */
  lemma KeySuffix(messageId: string)
    ensures ("notif-" + messageId)[6..] == messageId
  {
  }

  lemma DerivedKeyedByMessage(msgs: seq<Message>, seen: set<string>, me: User)
    ensures KeyedByMessage(Derived(msgs, seen, me))
  {
    DerivedSound(msgs, seen, me);
  }

  /** With unique message ids, the notifications updater keeps the list
      keyed by message and free of two entries for one message. */
  lemma PrependKeepsDistinct(msgs: seq<Message>, prev: seq<Notification>, me: User)
    requires DistinctMessageIds(msgs) && KeyedByMessage(prev) && DistinctNotified(prev)
    ensures var r := Prepend(Derived(msgs, SeenIds(prev), me), prev);
      KeyedByMessage(r) && DistinctNotified(r)
  {
    var seen := SeenIds(prev);
    var d := Derived(msgs, seen, me);
    DerivedDistinct(msgs, seen, me);
    DerivedUnseenUnread(msgs, seen, me);
    DerivedKeyedByMessage(msgs, seen, me);
    var r := Prepend(d, prev);
    forall i | 0 <= i < |r|
      ensures r[i].id == "notif-" + r[i].messageId
    {
      if i < |d| {
        assert r[i] == d[|d| - 1 - i];
      } else {
        assert r[i] == prev[i - |d|];
      }
    }
    forall i, j | 0 <= i < j < |r|
      ensures r[i].messageId != r[j].messageId
    {
      if j < |d| {
        assert r[i] == d[|d| - 1 - i] && r[j] == d[|d| - 1 - j];
      } else if i < |d| {
        assert r[i] == d[|d| - 1 - i] && r[j] == prev[j - |d|];
        assert r[j].messageId in seen;
      } else {
        assert r[i] == prev[i - |d|] && r[j] == prev[j - |d|];
      }
    }
  }

  /** On a keyed list without two entries for one message, marking an
      entry read changes that entry alone. */
  lemma MarkReadOnlyClicked(ns: seq<Notification>, k: int)
    requires KeyedByMessage(ns) && DistinctNotified(ns) && 0 <= k < |ns|
    ensures var r := MarkRead(ns, ns[k].id);
      && r[k] == ns[k].(isRead := true)
      && forall i :: 0 <= i < |ns| && i != k ==> r[i] == ns[i]
  {
    forall i | 0 <= i < |ns| && i != k
      ensures ns[i].id != ns[k].id
    {
      assert ns[i].messageId != ns[k].messageId;
      KeySuffix(ns[i].messageId);
      KeySuffix(ns[k].messageId);
    }
  }
}

=== FILE: chat_view.dfy ===
/**
 * components/ChatView.tsx: the chat client's state and its handlers. Every
 * network result, clock value, random id and AI answer is a parameter; the
 * browser's local storage slot for messages is the `cache` field.
 */
module ChatView {
  import opened Types
  import opened Strings
  import opened ChatUpdates
  import Constants

  /** What a poll of `GET /api/chat` came back with. `Failed` covers status
      404 or 500, a network error and a body that is not JSON; `NoList` is a
      body without a `messages` array. */
  datatype FetchOutcome = Fetched(list: seq<Message>) | NoList | Failed

  /** What `POST /api/chat` came back with; the client ignores it. */
  datatype SendOutcome = Stored | Refused | Unreachable

  const AiUserId: string := "gemini-ai"
  const AiUsername: string := "Gemini AI"
  const AiAvatar: string := "https://avatar.vercel.sh/gemini"
  const AiTrigger: string := "@gemini"
  const EmptyAiReply: string := "..."

  /** `inputText.toLowerCase().includes('@gemini')`: text shorter than the
      trigger never calls the AI. */
  predicate MentionsAi(typed: string)
    ensures MentionsAi(typed) ==> |typed| >= |AiTrigger|
  {
    Contains(Lower(typed), AiTrigger)
  }

  /** The AI is called exactly when "@gemini" occurs somewhere in the
      lower-cased text. */
  lemma MentionsAiIffOccurs(typed: string)
    ensures MentionsAi(typed) <==>
              exists i :: 0 <= i <= |typed| - |AiTrigger| && OccursAt(Lower(typed), AiTrigger, i)
  {
    ContainsIffOccurs(Lower(typed), AiTrigger);
  }

  /** The AI message answering `userMsg`: `aiReplyText || '...'`. */
  function AiMessage(id: string, now: int, reply: Option<string>, userMsg: Message): (m: Message)
    ensures m.userId == AiUserId && m.isAi && m.replyTo == Some(SnapshotOf(userMsg))
    ensures m.text == if reply == None || reply == Some("") then EmptyAiReply else reply.value
  {
    Message(id, AiUserId, AiUsername,
            if reply == None || reply == Some("") then EmptyAiReply else reply.value,
            now, true, Some(AiAvatar), None, Some(SnapshotOf(userMsg)))
  }

  /** The message `handleSendMessage` sends for the typed text: trimmed, in
      the sender's name colour, with a snapshot of the message replied to. */
  function UserMessage(u: User, typed: string, replyingTo: Option<Message>, id: string, now: int)
    : (m: Message)
    ensures m.id == id && m.timestamp == now && m.avatar == Some(u.avatar)
    ensures m.userId == u.id && m.username == u.username && !m.isAi
    ensures m.text == Trim(typed) && m.userColor == u.nameColor
    ensures m.replyTo == if replyingTo.Some? then Some(SnapshotOf(replyingTo.value)) else None
  {
    Message(id, u.id, u.username, Trim(typed), now, false, Some(u.avatar), u.nameColor,
            if replyingTo.Some? then Some(SnapshotOf(replyingTo.value)) else None)
  }

  class ChatView {
    /** The signed-in user, as the last `onUpdateUser` left it. */
    var user: User
    var messages: seq<Message>
    /** The local storage copy of the message list. */
    var cache: seq<Message>
    var inputText: string
    var isAiThinking: bool
    var isOffline: bool
    var isLoading: bool
    var replyingTo: Option<Message>
    var selectedMessageId: Option<string>
    var notifications: seq<Notification>
    var unreadCount: int
    /** AI messages whose one-second timer has not fired yet, oldest first. */
    var pendingAiReplies: seq<Message>

    ghost predicate Valid()
      reads this
    {
      && unreadCount >= 0
      && |notifications| <= NotificationCap
      && (isAiThinking ==> pendingAiReplies != [])
    }

    /** Mounting the view; `cache` is what local storage held (empty when
        absent or unreadable). */
    constructor (user: User, cache: seq<Message>)
      ensures Valid() && this.user == user && this.cache == cache
      ensures messages == [] && notifications == [] && unreadCount == 0 && pendingAiReplies == []
      ensures isLoading && !isOffline && !isAiThinking && inputText == ""
      ensures replyingTo == None && selectedMessageId == None
    {
      this.user, this.cache := user, cache;
      messages, notifications, unreadCount, pendingAiReplies := [], [], 0, [];
      isLoading, isOffline, isAiThinking, inputText := true, false, false, "";
      replyingTo, selectedMessageId := None, None;
    }

    /** `fetchMessages`, one poll with its outcome supplied. */
    method FetchMessages(outcome: FetchOutcome)
      requires Valid()
      modifies this`messages, this`isOffline, this`isLoading
      ensures Valid() && !isLoading
      ensures outcome.Fetched? ==> messages == ReconcileRemote(old(messages), outcome.list) && !isOffline
      ensures outcome.NoList? ==> messages == old(messages) && isOffline == old(isOffline)
      ensures outcome.Failed? ==> messages == ReconcileLocal(old(messages), cache) && isOffline
      ensures outcome.Failed? ==> |messages| >= |old(messages)|
    {
      match outcome {
        case Fetched(list) =>
          messages := ReconcileRemote(messages, list);
          isOffline := false;
        case NoList =>
        case Failed =>
          if !isOffline {
            isOffline := true;
          }
          messages := ReconcileLocal(messages, cache);
      }
      isLoading := false;
    }

    /** `sendMessageToApi`: append and re-cache before the request, whatever
        the request's outcome. */
    method SendMessageToApi(msg: Message, outcome: SendOutcome)
      requires Valid()
      modifies this`messages, this`cache
      ensures Valid()
      ensures messages == old(messages) + [msg]
      ensures cache == LastN(messages, CacheCap)
    {
      messages := messages + [msg];
      cache := LastN(messages, CacheCap);
    }

    /**
     * `handleSendMessage`. `msgId` and `now` are the clock and random parts
     * of the new message; `respond` is the AI responder (its `None` is an
     * answer without text); `aiId` and `aiNow` stamp the AI message. Returns
     * the user handed to `onUpdateUser`, `None` when nothing was sent.
     */
    method HandleSendMessage(msgId: string, now: int, outcome: SendOutcome,
                             respond: (string, string) -> Option<string>, aiId: string, aiNow: int)
      returns (update: Option<User>)
      requires Valid()
      modifies this`user, this`messages, this`cache, this`inputText, this`replyingTo
      modifies this`isAiThinking, this`pendingAiReplies
      ensures Valid()
      ensures Trim(old(inputText)) == [] ==>
                && update == None && user == old(user) && messages == old(messages)
                && inputText == old(inputText) && pendingAiReplies == old(pendingAiReplies)
                && cache == old(cache) && replyingTo == old(replyingTo)
      ensures Trim(old(inputText)) != [] ==>
                && update == Some(old(user).(credits := Some(CreditsOf(old(user)) + 1)))
                && user == update.value
                && messages == old(messages) + [UserMessage(old(user), old(inputText), old(replyingTo), msgId, now)]
                && cache == LastN(messages, CacheCap)
                && inputText == "" && replyingTo == None
      ensures Trim(old(inputText)) != [] && MentionsAi(old(inputText)) ==>
                && isAiThinking
                && pendingAiReplies == old(pendingAiReplies) +
                     [AiMessage(aiId, aiNow, respond(old(inputText), Context(old(messages))),
                                UserMessage(old(user), old(inputText), old(replyingTo), msgId, now))]
      ensures Trim(old(inputText)) == [] || !MentionsAi(old(inputText)) ==>
                pendingAiReplies == old(pendingAiReplies) && isAiThinking == old(isAiThinking)
    {
      if Trim(inputText) == [] {
        return None;
      }
      update := SendTyped(msgId, now, outcome, respond, aiId, aiNow);
    }

    /** `handleSendMessage` past its blank-input guard. */
    method SendTyped(msgId: string, now: int, outcome: SendOutcome,
                     respond: (string, string) -> Option<string>, aiId: string, aiNow: int)
      returns (update: Option<User>)
      requires Valid()
      modifies this`user, this`messages, this`cache, this`inputText, this`replyingTo
      modifies this`isAiThinking, this`pendingAiReplies
      ensures Valid()
      ensures && update == Some(old(user).(credits := Some(CreditsOf(old(user)) + 1)))
              && user == update.value
              && messages == old(messages) + [UserMessage(old(user), old(inputText), old(replyingTo), msgId, now)]
              && cache == LastN(messages, CacheCap)
              && inputText == "" && replyingTo == None
      ensures MentionsAi(old(inputText)) ==>
                && isAiThinking
                && pendingAiReplies == old(pendingAiReplies) +
                     [AiMessage(aiId, aiNow, respond(old(inputText), Context(old(messages))),
                                UserMessage(old(user), old(inputText), old(replyingTo), msgId, now))]
      ensures !MentionsAi(old(inputText)) ==>
                pendingAiReplies == old(pendingAiReplies) && isAiThinking == old(isAiThinking)
    {
      var typed, before, current := inputText, messages, user;
      var updated := current.(credits := Some(CreditsOf(current) + 1));
      user := updated;
      update := Some(updated);
      var userMsg := UserMessage(current, typed, replyingTo, msgId, now);
      inputText := "";
      replyingTo := None;
      SendMessageToApi(userMsg, outcome);
      if MentionsAi(typed) {
        QueueAiReply(typed, before, userMsg, respond, aiId, aiNow);
      }
    }

    /** The AI branch of `handleSendMessage`: show the thinking indicator,
        ask the responder with the ten latest messages before the send as
        context, and start the timer that will post the answer. */
    method QueueAiReply(typed: string, before: seq<Message>, userMsg: Message,
                        respond: (string, string) -> Option<string>, aiId: string, aiNow: int)
      requires Valid()
      modifies this`isAiThinking, this`pendingAiReplies
      ensures Valid() && isAiThinking
      ensures pendingAiReplies == old(pendingAiReplies) +
                [AiMessage(aiId, aiNow, respond(typed, Context(before)), userMsg)]
    {
      isAiThinking := true;
      var context := Context(before);
      var aiReplyText := respond(typed, context);
      pendingAiReplies := pendingAiReplies + [AiMessage(aiId, aiNow, aiReplyText, userMsg)];
    }

    /** The one-second timer of the oldest pending AI reply fires. */
    method FireAiTimer(outcome: SendOutcome)
      requires Valid() && pendingAiReplies != []
      modifies this`isAiThinking, this`pendingAiReplies, this`messages, this`cache
      ensures Valid() && !isAiThinking
      ensures pendingAiReplies == old(pendingAiReplies)[1..]
      ensures messages == old(messages) + [old(pendingAiReplies)[0]]
      ensures cache == LastN(messages, CacheCap)
    {
      var aiMsg := pendingAiReplies[0];
      pendingAiReplies := pendingAiReplies[1..];
      isAiThinking := false;
      SendMessageToApi(aiMsg, outcome);
    }

    /**
     * The notification effect, run after `messages` changes: one pass over
     * the messages against the ids already notified, then the new entries
     * go first, newest first, and the unread counter grows by their number.
     */
    method RunNotificationEffect()
      requires Valid()
      modifies this`notifications, this`unreadCount
      ensures Valid()
      ensures var created := Derived(messages, SeenIds(old(notifications)), user);
        && notifications == (if created == [] then old(notifications) else Prepend(created, old(notifications)))
        && unreadCount == old(unreadCount) + |created|
    {
      var seen := SeenIds(notifications);
      if |messages| == 0 {
        return;
      }
      var created: seq<Notification> := [];
      var myNameTag := Lower("@" + user.username);
      var i := 0;
      while i < |messages|
        invariant 0 <= i <= |messages|
        invariant created == Derived(messages[..i], seen, user)
      {
        var msg := messages[i];
        assert messages[..i + 1][..i] == messages[..i];
        assert Derived(messages[..i + 1], seen, user) == created + AsSeq(NotificationOf(msg, seen, user));
        if msg.userId != user.id && msg.id !in seen {
          var isMention := Contains(Lower(msg.text), myNameTag);
          var isReply := msg.replyTo.Some? && msg.replyTo.value.username == user.username;
          if isMention || isReply {
            created := created + [Notification("notif-" + msg.id, msg.id, msg.username,
                                               if isReply then Reply else Mention,
                                               msg.text, msg.timestamp, false)];
          }
        }
        i := i + 1;
      }
      assert messages[..i] == messages;
      if |created| > 0 {
        notifications := Prepend(created, notifications);
        unreadCount := unreadCount + |created|;
      }
    }

    /** `handleMessageClick`: select a message, or deselect it when it is
        already the selected one. */
    method HandleMessageClick(id: string)
      modifies this`selectedMessageId
      ensures old(selectedMessageId) == Some(id) ==> selectedMessageId == None
      ensures old(selectedMessageId) != Some(id) ==> selectedMessageId == Some(id)
    {
      if selectedMessageId == Some(id) {
        selectedMessageId := None;
      } else {
        selectedMessageId := Some(id);
      }
    }

    /** A click on a message's reply snapshot selects the quoted message
        when the snapshot carries a non-empty id. */
    method FollowReply(msg: Message)
      modifies this`selectedMessageId
      ensures msg.replyTo.Some? && msg.replyTo.value.id != "" ==>
                selectedMessageId == Some(msg.replyTo.value.id)
      ensures !(msg.replyTo.Some? && msg.replyTo.value.id != "") ==>
                selectedMessageId == old(selectedMessageId)
    {
      if msg.replyTo.Some? && msg.replyTo.value.id != "" {
        selectedMessageId := Some(msg.replyTo.value.id);
      }
    }

    /** `handleReplyClick`: set the reply target; no message changes. */
    method HandleReplyClick(msg: Message)
      modifies this`replyingTo
      ensures replyingTo == Some(msg)
    {
      replyingTo := Some(msg);
    }

    /** The close button of the reply bar. */
    method CancelReply()
      modifies this`replyingTo
      ensures replyingTo == None
    {
      replyingTo := None;
    }

    /** The AI button: appends " @gemini " to the input. */
    method AddAiTag()
      modifies this`inputText
      ensures inputText == old(inputText) + " " + AiTrigger + " "
    {
      inputText := inputText + " " + AiTrigger + " ";
    }

    /**
     * `handleNotificationClick`, state part. `present` says whether the
     * referenced message is still on screen; `tooOld` is the alert shown
     * when it is not.
     */
    method HandleNotificationClick(n: Notification, present: bool) returns (tooOld: bool)
      requires Valid()
      modifies this`notifications, this`unreadCount, this`selectedMessageId
      ensures Valid()
      ensures notifications == MarkRead(old(notifications), n.id)
      ensures unreadCount == if old(unreadCount) > 0 then old(unreadCount) - 1 else 0
      ensures tooOld == !present
      ensures present ==> selectedMessageId == Some(n.messageId)
      ensures !present ==> selectedMessageId == old(selectedMessageId)
    {
      notifications := MarkRead(notifications, n.id);
      unreadCount := if unreadCount - 1 > 0 then unreadCount - 1 else 0;
      if present {
        selectedMessageId := Some(n.messageId);
      }
      tooOld := !present;
    }

    /** The clear-all button of the notification panel, which is shown only
        while there are unread notifications; a read list cannot be cleared. */
    method ClearNotifications()
      requires Valid()
      modifies this`notifications, this`unreadCount
      ensures Valid()
      ensures old(unreadCount) > 0 ==> notifications == [] && unreadCount == 0
      ensures old(unreadCount) <= 0 ==> notifications == old(notifications) && unreadCount == old(unreadCount)
    {
      if unreadCount > 0 {
        notifications, unreadCount := [], 0;
      }
    }

    /** `handleBuyColor`: pay the price and take the colour when the balance
        covers it; otherwise nothing changes. */
    method HandleBuyColor(item: Constants.ShopItem) returns (update: Option<User>)
      requires Valid()
      modifies this`user
      ensures Valid()
      ensures CreditsOf(old(user)) >= item.price ==>
                && update == Some(old(user).(nameColor := Some(item.cls),
                                             credits := Some(CreditsOf(old(user)) - item.price)))
                && user == update.value
      ensures CreditsOf(old(user)) < item.price ==> update == None && user == old(user)
      ensures update.Some? ==> CreditsOf(user) >= 0
    {
      var credits := CreditsOf(user);
      if credits >= item.price {
        update := Some(user.(nameColor := Some(item.cls), credits := Some(credits - item.price)));
        user := update.value;
      } else {
        update := None;
      }
    }

    /** The shop's buy button, disabled while the item's colour is the one
        worn; otherwise it runs `handleBuyColor`. */
    method PressBuyButton(item: Constants.ShopItem) returns (update: Option<User>)
      requires Valid()
      modifies this`user
      ensures Valid()
      ensures old(user).nameColor == Some(item.cls) ==> update == None && user == old(user)
      ensures old(user).nameColor != Some(item.cls) && CreditsOf(old(user)) >= item.price ==>
                && update == Some(old(user).(nameColor := Some(item.cls),
                                             credits := Some(CreditsOf(old(user)) - item.price)))
                && user == update.value
      ensures CreditsOf(old(user)) < item.price ==> update == None && user == old(user)
    {
      if user.nameColor == Some(item.cls) {
        return None;
      }
      update := HandleBuyColor(item);
    }

    /** `handleSaveProfile`: a non-blank name is saved trimmed, with the
        trimmed avatar address or the old one when that is blank. */
    method HandleSaveProfile(editName: string, editAvatar: string) returns (update: Option<User>)
      requires Valid()
      modifies this`user
      ensures Valid()
      ensures Trim(editName) == [] ==> update == None && user == old(user)
      ensures Trim(editName) != [] ==>
                && update == Some(old(user).(username := Trim(editName),
                                  avatar := if Trim(editAvatar) == [] then old(user).avatar else Trim(editAvatar)))
                && user == update.value
    {
      if Trim(editName) != [] {
        var avatar := if Trim(editAvatar) != [] then Trim(editAvatar) else user.avatar;
        update := Some(user.(username := Trim(editName), avatar := avatar));
        user := update.value;
      } else {
        update := None;
      }
    }
  }

}

=== FILE: constants.dfy ===
/**
 * constants.ts: the colour shop's catalogue and the resolution of an API
 * endpoint against the server address the user configured.
 */
module Constants {
  import opened Types

  datatype ShopItem = ShopItem(id: string, name: string, cls: string, price: int)

  /** The six name colours on sale; every one costs 10 credits. */
  function ShopItems(): (items: seq<ShopItem>)
    ensures |items| == 6
    ensures forall k :: 0 <= k < |items| ==> items[k].price == 10
    ensures forall j, k :: 0 <= j < k < |items| ==> items[j].id != items[k].id
    ensures forall j, k :: 0 <= j < k < |items| ==> items[j].cls != items[k].cls
  {
    [ ShopItem("neon-blue", "Neon Blue", "text-cyan-400", 10),
      ShopItem("gold", "Golden Legend", "text-yellow-400", 10),
      ShopItem("rose", "Rose Pink", "text-pink-400", 10),
      ShopItem("lime", "Toxic Lime", "text-lime-400", 10),
      ShopItem("red", "Red Alert", "text-red-500", 10),
      ShopItem("purple", "Royal Purple", "text-purple-400", 10) ]
  }

  predicate EndsWith(s: string, suffix: string) {
    |suffix| <= |s| && s[|s| - |suffix|..] == suffix
  }

  /**
   * `getApiUrl(endpoint)`. `hasWindow` is false during server rendering;
   * `stored` is the configured base address, `None` when the key is unset.
   */
  function GetApiUrl(endpoint: string, hasWindow: bool, stored: Option<string>): (url: string)
    ensures EndsWith(url, endpoint)
    ensures !hasWindow ==> url == endpoint
    ensures stored == None || stored == Some("") ==> url == endpoint
    ensures hasWindow && stored.Some? && !EndsWith(stored.value, "/") ==>
              url == stored.value + endpoint
    ensures hasWindow && stored.Some? && EndsWith(stored.value, "/") ==>
              url == stored.value[..|stored.value| - 1] + endpoint
  {
    if !hasWindow then endpoint
    else
      var base := stored.GetOr("");
      var trimmed := if EndsWith(base, "/") then base[..|base| - 1] else base;
      assert (trimmed + endpoint)[|trimmed|..] == endpoint;
      trimmed + endpoint
  }

  /** Only one trailing slash is cut: a base ending in "//" keeps one. */
  lemma {:induction false} OneSlashRemoved(base: string, endpoint: string)
    ensures GetApiUrl(endpoint, true, Some(base + "//")) == base + "/" + endpoint
  {
    var b := base + "//";
    assert EndsWith(b, "/");
    assert b[..|b| - 1] == base + "/";
  }
}

=== FILE: login_view.dfy ===
/**
 * components/LoginView.tsx: the live password-strength score, the ordered
 * checks the registration and login forms run before any request, and the
 * form state (`error`, `isLoading`) the two submit handlers update.
 */
module LoginView {
  import opened Types
  import opened Strings

  predicate IsAsciiLetter(c: char) {
    'a' <= c <= 'z' || 'A' <= c <= 'Z'
  }

  predicate IsDigit(c: char) {
    '0' <= c <= '9'
  }

  /** `/[a-zA-Z]/.test(p)` */
  predicate HasLetter(p: string) {
    exists i :: 0 <= i < |p| && IsAsciiLetter(p[i])
  }

  /** `/[0-9]/.test(p)` */
  predicate HasDigit(p: string) {
    exists i :: 0 <= i < |p| && IsDigit(p[i])
  }

  /** `/[^a-zA-Z0-9]/.test(p)` */
  predicate HasSpecial(p: string) {
    exists i :: 0 <= i < |p| && !IsAsciiLetter(p[i]) && !IsDigit(p[i])
  }

  /**
   * The strength meter: 0 none or too short, 1 weak, 2 medium (letters and
   * digits), 3 strong (medium plus length 10 or a special character).
   * Lengths are `length`, in UTF-16 code units.
   */
  function PasswordStrength(p: string): (score: int)
    ensures 0 <= score <= 3
    ensures score == 0 <==> Utf16Length(p) < 6
    ensures score >= 2 <==> Utf16Length(p) >= 6 && HasLetter(p) && HasDigit(p)
    ensures score == 3 <==> score >= 2 && (Utf16Length(p) >= 10 || HasSpecial(p))
  {
    if p == [] then 0
    else if Utf16Length(p) < 6 then 0
    else
      var score := if HasLetter(p) && HasDigit(p) then 2 else 1;
      if score == 2 && (Utf16Length(p) >= 10 || HasSpecial(p)) then 3 else score
  }

  /** Characters above U+FFFF count twice: three emoji reach the length of
      six, and the meter rates them weak rather than too short. */
  lemma SurrogatePairsCountTwice()
    ensures Utf16Length("\U{1F600}\U{1F600}\U{1F600}") == 6
    ensures PasswordStrength("\U{1F600}\U{1F600}\U{1F600}") == 1
  {
    var e := "\U{1F600}";
    assert e + e + e == "\U{1F600}\U{1F600}\U{1F600}";
    assert Utf16Length(e) == 2;
    assert (e + e + e)[1..] == e + e;
    assert (e + e)[1..] == e;
    assert !HasDigit(e + e + e);
  }

  datatype FormError =
    | MissingFields
    | IdTooShort
    | PasswordTooShort
    | PasswordTooWeak
    | MissingLogin

  /** The message the form shows for each failed check. */
  function Text(e: FormError): string {
    match e
    case MissingFields => "Vui lòng điền đầy đủ thông tin!"
    case IdTooShort => "ID quá ngắn! Phải có ít nhất 5 ký tự."
    case PasswordTooShort => "Mật khẩu quá ngắn (tối thiểu 6 ký tự)."
    case PasswordTooWeak => "Mật khẩu quá yếu! Vui lòng thêm cả chữ và số."
    case MissingLogin => "Vui lòng nhập ID và Mật khẩu!"
  }

  const RegisterFailedText: string := "Đăng ký thất bại"
  const LoginFailedText: string := "Đăng nhập thất bại"
  const UnreachableText: string := "Không thể kết nối đến Server! Hãy kiểm tra cài đặt Host."

  /**
   * The checks `handleRegister` runs in order; `strength` is the meter's
   * current value, which is computed on the password as typed (untrimmed).
   * `None` means the request is sent.
   */
  function CheckRegistration(customId: string, username: string, password: string, strength: int)
    : (r: Option<FormError>)
    ensures r == Some(MissingFields) <==>
              Trim(customId) == [] || Trim(username) == [] || Trim(password) == []
    ensures r == Some(IdTooShort) <==>
              r != Some(MissingFields) && Utf16Length(Trim(customId)) < 5
    ensures r == Some(PasswordTooShort) <==>
              && r != Some(MissingFields) && Utf16Length(Trim(customId)) >= 5 && strength < 2
              && Utf16Length(Trim(password)) < 6
    ensures r == Some(PasswordTooWeak) <==>
              && r != Some(MissingFields) && Utf16Length(Trim(customId)) >= 5 && strength < 2
              && Utf16Length(Trim(password)) >= 6
    ensures r == None <==>
              && Trim(username) != [] && Trim(password) != []
              && Utf16Length(Trim(customId)) >= 5 && strength >= 2
  {
    var id, name, pass := Trim(customId), Trim(username), Trim(password);
    if id == [] || name == [] || pass == [] then Some(MissingFields)
    else if Utf16Length(id) < 5 then Some(IdTooShort)
    else if strength < 2 then
      if Utf16Length(pass) < 6 then Some(PasswordTooShort) else Some(PasswordTooWeak)
    else None
  }

  /** With the meter in step with the password, an accepted registration has
      a password of at least 6 code units holding a letter and a digit. */
  lemma AcceptedPasswordIsMedium(customId: string, username: string, password: string)
    requires CheckRegistration(customId, username, password, PasswordStrength(password)) == None
    ensures Utf16Length(password) >= 6 && HasLetter(password) && HasDigit(password)
    ensures Utf16Length(Trim(customId)) >= 5
  {
  }

  /** The meter scores the password as typed while the trimmed one is
      sent, so blanks around a short password pass the strength check. */
  lemma PaddedShortPasswordAccepted(customId: string, username: string)
    requires Utf16Length(Trim(customId)) >= 5 && Trim(username) != []
    ensures var p := "  ab1  ";
      && CheckRegistration(customId, username, p, PasswordStrength(p)) == None
      && NewUser(customId, username, p, "", "").password == Some("ab1")
  {
    PaddedStrength();
    PaddedTrim();
  }

  /** The blanks count as special characters: the padded password is strong. */
  lemma PaddedStrength()
    ensures PasswordStrength("  ab1  ") == 3
  {
    var p := "  ab1  ";
    Utf16LengthOfBmp(p);
    assert IsAsciiLetter(p[2]) && IsDigit(p[4]);
    assert !IsAsciiLetter(p[0]) && !IsDigit(p[0]);
  }

  lemma PaddedTrim()
    ensures Trim("  ab1  ") == "ab1"
  {
    assert !IsSpace('a') && !IsSpace('1') && IsSpace(' ');
    assert Trim("ab1") == "ab1";
    assert "ab1 "[..3] == "ab1";
    assert Trim("ab1 ") == "ab1";
    assert "ab1  "[..4] == "ab1 ";
    assert Trim("ab1  ") == "ab1";
    assert " ab1  "[1..] == "ab1  ";
    assert Trim(" ab1  ") == "ab1";
    assert "  ab1  "[1..] == " ab1  ";
  }

  /** The registration checks as evidently intended: the strength is that
      of the password actually sent. */
  function CheckRegistrationTrimmed(customId: string, username: string, password: string)
    : (r: Option<FormError>)
    ensures r == None ==>
              var sent := NewUser(customId, username, password, "", "").password.value;
              Utf16Length(sent) >= 6 && HasLetter(sent) && HasDigit(sent)
    ensures r == None <==>
              && Trim(username) != [] && Utf16Length(Trim(customId)) >= 5
              && PasswordStrength(Trim(password)) >= 2
  {
    CheckRegistration(customId, username, password, PasswordStrength(Trim(password)))
  }

  /** The checks `handleLogin` runs before its request. */
  function CheckLogin(loginId: string, loginPassword: string): (r: Option<FormError>)
    ensures r == None <==> Trim(loginId) != [] && Trim(loginPassword) != []
    ensures r.Some? ==> r.value == MissingLogin
  {
    if Trim(loginId) == [] || Trim(loginPassword) == [] then Some(MissingLogin) else None
  }

  /** The user `handleRegister` sends: trimmed fields, 50 credits and the
      cyan name colour; avatar and background colour are random picks. */
  function NewUser(customId: string, username: string, password: string, avatar: string, color: string)
    : (u: User)
    ensures u.id == Trim(customId) && u.username == Trim(username)
    ensures u.password == Some(Trim(password))
    ensures u.credits == Some(50) && u.nameColor == Some("text-cyan-400")
    ensures u.token == None
  {
    User(Trim(customId), Trim(username), Some(Trim(password)), avatar, color,
         Some("text-cyan-400"), Some(50), None)
  }

  /** What a request to the credential route came back with. `Unreachable`
      stands for a failed fetch or a body that is not JSON. */
  datatype ServerReply =
    | Replied(ok: bool, error: Option<string>, user: User)
    | Unreachable

  /** The message shown for a reply: `data.error || fallback`, or the
      connection message when no reply came. A failed request never shows
      an empty message, and what it shows is the server's text or the
      fallback. */
  function ReplyError(reply: ServerReply, fallback: string): (r: string)
    ensures fallback != "" ==> r != ""
    ensures reply.Replied? ==> r == fallback || reply.error == Some(r)
    ensures reply.Unreachable? ==> r == UnreachableText
  {
    match reply
    case Unreachable => UnreachableText
    case Replied(_, e, _) => if e == None || e == Some("") then fallback else e.value
  }

  datatype Mode = Register | SignIn

  class LoginForm {
    var username: string
    var customId: string
    var password: string
    var loginId: string
    var loginPassword: string
    var mode: Mode
    var error: string
    var isLoading: bool
    var passStrength: int

    /** The strength effect has run for the current password and mode. */
    ghost predicate Valid()
      reads this
    {
      mode == Register ==> passStrength == PasswordStrength(password)
    }

    constructor ()
      ensures Valid()
      ensures username == customId == password == loginId == loginPassword == ""
      ensures mode == Register && error == "" && !isLoading && passStrength == 0
    {
      username, customId, password := "", "", "";
      loginId, loginPassword := "", "";
      mode, error, isLoading, passStrength := Register, "", false, 0;
    }

    /** Typing in the password field; the strength effect runs in register mode. */
    method SetPassword(p: string)
      requires Valid()
      modifies this`password, this`passStrength
      ensures Valid() && password == p
      ensures mode == Register ==> passStrength == PasswordStrength(p)
      ensures mode == SignIn ==> passStrength == old(passStrength)
    {
      password := p;
      if mode == Register {
        passStrength := PasswordStrength(p);
      }
    }

    /** The two tab buttons: switch mode and clear the error. */
    method SetMode(m: Mode)
      requires Valid()
      modifies this`mode, this`error, this`passStrength
      ensures Valid() && mode == m && error == ""
      ensures m == SignIn ==> passStrength == old(passStrength)
    {
      mode, error := m, "";
      if m == Register {
        passStrength := PasswordStrength(password);
      }
    }

    /**
     * `handleRegister`. `request` is the user sent to the server (`None`
     * when a check failed first); `signedIn` is the user handed to `onLogin`.
     */
    method HandleRegister(avatar: string, color: string, reply: ServerReply)
      returns (request: Option<User>, signedIn: Option<User>)
      requires Valid() && mode == Register
      modifies this`error, this`isLoading
      ensures Valid() && !isLoading
      ensures var check := CheckRegistration(customId, username, password, passStrength);
        && (check.Some? ==> request == None && signedIn == None && error == Text(check.value))
        && (check.None? ==> request == Some(NewUser(customId, username, password, avatar, color)))
        && (check.None? && reply.Replied? && reply.ok ==> signedIn == Some(reply.user) && error == "")
        && (check.None? && !(reply.Replied? && reply.ok) ==>
              signedIn == None && error == ReplyError(reply, RegisterFailedText))
    {
      error := "";
      isLoading := true;
      request, signedIn := None, None;
      var check := CheckRegistration(customId, username, password, passStrength);
      if check.Some? {
        error := Text(check.value);
        isLoading := false;
        return;
      }
      request := Some(NewUser(customId, username, password, avatar, color));
      if reply.Replied? && reply.ok {
        signedIn := Some(reply.user);
      } else {
        error := ReplyError(reply, RegisterFailedText);
      }
      isLoading := false;
    }

    /** `handleLogin`: `request` is the trimmed `(id, password)` pair sent. */
    method HandleLogin(reply: ServerReply)
      returns (request: Option<(string, string)>, signedIn: Option<User>)
      requires Valid() && mode == SignIn
      modifies this`error, this`isLoading
      ensures Valid() && !isLoading
      ensures CheckLogin(loginId, loginPassword).Some? ==>
                request == None && signedIn == None && error == Text(MissingLogin)
      ensures CheckLogin(loginId, loginPassword).None? ==>
                request == Some((Trim(loginId), Trim(loginPassword)))
      ensures CheckLogin(loginId, loginPassword).None? && reply.Replied? && reply.ok ==>
                signedIn == Some(reply.user) && error == ""
      ensures CheckLogin(loginId, loginPassword).None? && !(reply.Replied? && reply.ok) ==>
                signedIn == None && error == ReplyError(reply, LoginFailedText)
    {
      error := "";
      isLoading := true;
      request, signedIn := None, None;
      var check := CheckLogin(loginId, loginPassword);
      if check.Some? {
        error := Text(check.value);
        isLoading := false;
        return;
      }
      request := Some((Trim(loginId), Trim(loginPassword)));
      if reply.Replied? && reply.ok {
        signedIn := Some(reply.user);
      } else {
        error := ReplyError(reply, LoginFailedText);
      }
      isLoading := false;
    }
  }
}

=== FILE: strings.dfy ===
/**
 * The JavaScript string operations the application relies on:
 * `String.prototype.trim`, `length`, lower-casing (ASCII only) and
 * `includes`.
 */
module Strings {

  /** The characters `trim` removes: ECMAScript WhiteSpace and LineTerminator. */
  predicate IsSpace(c: char) {
    c == '\t' || c == '\n' || c == '\U{B}' || c == '\U{C}' || c == '\r' ||
    c == ' ' || c == '\U{A0}' || c == '\U{1680}' || ('\U{2000}' <= c <= '\U{200A}') ||
    c == '\U{2028}' || c == '\U{2029}' || c == '\U{202F}' || c == '\U{205F}' ||
    c == '\U{3000}' || c == '\U{FEFF}'
  }

  predicate AllSpace(s: string) {
    forall i :: 0 <= i < |s| ==> IsSpace(s[i])
  }

  /** Neither end of `s` is white space. */
  predicate Trimmed(s: string) {
    s == [] || (!IsSpace(s[0]) && !IsSpace(s[|s| - 1]))
  }

  /** `s.trim()`: white space is cut from the front, then from the back. */
  function Trim(s: string): (r: string)
    ensures |r| <= |s|
    ensures Trimmed(r)
    decreases |s|
  {
    if |s| > 0 && IsSpace(s[0]) then Trim(s[1..])
    else if |s| > 0 && IsSpace(s[|s| - 1]) then Trim(s[..|s| - 1])
    else s
  }

  /** `s` is `r` at position `i` between a blank prefix and a blank suffix. */
  predicate BlankAround(s: string, r: string, i: int) {
    0 <= i <= |s| - |r| && OccursAt(s, r, i) && AllSpace(s[..i]) && AllSpace(s[i + |r|..])
  }

  lemma BlankAroundFront(s: string, r: string, i: int)
    requires |s| > 0 && IsSpace(s[0]) && BlankAround(s[1..], r, i)
    ensures BlankAround(s, r, i + 1)
  {
    var t := s[1..];
    assert s[i + 1..i + 1 + |r|] == t[i..i + |r|];
    assert s[..i + 1] == [s[0]] + t[..i];
    assert s[i + 1 + |r|..] == t[i + |r|..];
  }

  lemma BlankAroundBack(s: string, r: string, i: int)
    requires |s| > 0 && IsSpace(s[|s| - 1]) && BlankAround(s[..|s| - 1], r, i)
    ensures BlankAround(s, r, i)
  {
    var t := s[..|s| - 1];
    assert s[i..i + |r|] == t[i..i + |r|];
    assert s[..i] == t[..i];
    assert s[i + |r|..] == t[i + |r|..] + [s[|s| - 1]];
  }

  /** What `trim` cuts is white space: the input is a blank prefix, the
      result and a blank suffix. */
  lemma {:induction false} TrimCutsBlankEnds(s: string)
    ensures exists i :: BlankAround(s, Trim(s), i)
    decreases |s|
  {
    var r := Trim(s);
    if |s| > 0 && IsSpace(s[0]) {
      TrimCutsBlankEnds(s[1..]);
      var i :| BlankAround(s[1..], r, i);
      BlankAroundFront(s, r, i);
    } else if |s| > 0 && IsSpace(s[|s| - 1]) {
      TrimCutsBlankEnds(s[..|s| - 1]);
      var i :| BlankAround(s[..|s| - 1], r, i);
      BlankAroundBack(s, r, i);
    } else {
      assert s[..0] == [] && s[|s|..] == [] && s[0..|s|] == s;
      assert BlankAround(s, r, 0);
    }
  }

  /** `trim` gives the empty string exactly for blank input. */
  lemma TrimEmptyIffBlank(s: string)
    ensures Trim(s) == [] <==> AllSpace(s)
  {
    TrimCutsBlankEnds(s);
    var r := Trim(s);
    var i :| BlankAround(s, r, i);
    if r == [] {
      assert s == s[..i] + s[i..];
    } else {
      assert s[i] == r[0];
    }
  }

  /** `s.length`: UTF-16 code units, so a character above U+FFFF (a
      surrogate pair) counts twice. */
  function Utf16Length(s: string): (n: nat)
    ensures |s| <= n <= 2 * |s|
  {
    if s == [] then 0 else (if s[0] as int > 0xFFFF then 2 else 1) + Utf16Length(s[1..])
  }

  /** One character is one code unit, or two above U+FFFF. */
  lemma Utf16LengthOne(c: char)
    ensures Utf16Length([c]) == if c as int > 0xFFFF then 2 else 1
  {
    assert [c][1..] == [];
  }

  /** The length of a concatenation is the sum of the lengths. */
  lemma {:induction false} Utf16LengthAppend(a: string, b: string)
    ensures Utf16Length(a + b) == Utf16Length(a) + Utf16Length(b)
    decreases |a|
  {
    if a == [] {
      assert a + b == b;
    } else {
      assert (a + b)[0] == a[0];
      assert (a + b)[1..] == a[1..] + b;
      Utf16LengthAppend(a[1..], b);
    }
  }

  /** On text of the Basic Multilingual Plane the two lengths agree. */
  lemma {:induction false} Utf16LengthOfBmp(s: string)
    requires forall i :: 0 <= i < |s| ==> s[i] as int <= 0xFFFF
    ensures Utf16Length(s) == |s|
  {
    if s != [] {
      assert forall i :: 0 <= i < |s| - 1 ==> s[1..][i] == s[i + 1];
      Utf16LengthOfBmp(s[1..]);
    }
  }

  function LowerChar(c: char): char {
    if 'A' <= c <= 'Z' then (c as int + 32) as char else c
  }

  /** `s.toLowerCase()`, restricted to the ASCII letters. */
  function Lower(s: string): (r: string)
    ensures |r| == |s|
  {
    if s == [] then [] else [LowerChar(s[0])] + Lower(s[1..])
  }

  /** Lower-casing works character by character, in place. */
  lemma {:induction false} LowerAt(s: string)
    ensures forall i :: 0 <= i < |s| ==> Lower(s)[i] == LowerChar(s[i])
  {
    if s != [] {
      LowerAt(s[1..]);
      assert forall i :: 1 <= i < |s| ==> Lower(s)[i] == Lower(s[1..])[i - 1];
    }
  }

  predicate OccursAt(s: string, t: string, i: int) {
    0 <= i && i + |t| <= |s| && s[i..i + |t|] == t
  }

  /** `s.includes(t)`, as the left-to-right scan: `t` starts here or
      somewhere further on. */
  predicate Contains(s: string, t: string)
    decreases |s|
  {
    |t| <= |s| && (s[..|t|] == t || Contains(s[1..], t))
  }

  /** The scan finds `t` exactly when `t` occurs at some position of `s`. */
  lemma {:induction false} ContainsIffOccurs(s: string, t: string)
    ensures Contains(s, t) <==> exists i :: 0 <= i <= |s| - |t| && OccursAt(s, t, i)
    decreases |s|
  {
    if |t| <= |s| {
      if s[..|t|] == t {
        assert OccursAt(s, t, 0);
      } else {
        ContainsIffOccurs(s[1..], t);
        if Contains(s[1..], t) {
          var i :| 0 <= i <= |s| - 1 - |t| && OccursAt(s[1..], t, i);
          assert s[i + 1..i + 1 + |t|] == s[1..][i..i + |t|];
          assert OccursAt(s, t, i + 1);
        }
        if exists i :: 0 <= i <= |s| - |t| && OccursAt(s, t, i) {
          var i :| 0 <= i <= |s| - |t| && OccursAt(s, t, i);
          assert i != 0;
          assert s[1..][i - 1..i - 1 + |t|] == s[i..i + |t|];
          assert OccursAt(s[1..], t, i - 1);
        }
      }
    }
  }
}

=== FILE: types.dfy ===
/**
 * The records the chat application passes between its client views and its
 * two server routes (types.ts). Optional TypeScript fields become `Option`;
 * an absent `isAi` flag is `false`, since every reader only tests its truth.
 */
module Types {

  datatype Option<+T> = None | Some(value: T) {
    function GetOr(default: T): T {
      match this
      case Some(v) => v
      case None => default
    }
  }

  /** A registered user as the client holds it. `password` is only filled
      in the registration request; `token` only after authentication. */
  datatype User = User(
    id: string,
    username: string,
    password: Option<string>,
    avatar: string,
    color: string,
    nameColor: Option<string>,
    credits: Option<int>,
    token: Option<string>)

  /** Frozen copy of the message a reply points at. */
  datatype ReplyInfo = ReplyInfo(id: string, username: string, text: string)

  datatype Message = Message(
    id: string,
    userId: string,
    username: string,
    text: string,
    timestamp: int,
    isAi: bool,
    avatar: Option<string>,
    userColor: Option<string>,
    replyTo: Option<ReplyInfo>)

  datatype NotificationKind = Reply | Mention

  datatype Notification = Notification(
    id: string,
    messageId: string,
    senderName: string,
    kind: NotificationKind,
    text: string,
    timestamp: int,
    isRead: bool)

  datatype View = Login | Chat

  /** The balance a client reads from a user: `credits || 0`. */
  function CreditsOf(u: User): int {
    u.credits.GetOr(0)
  }

  /** `{ id, username, text }` of a message, as a reply snapshot. */
  function SnapshotOf(m: Message): ReplyInfo {
    ReplyInfo(m.id, m.username, m.text)
  }
}

=== FILE: users_route.dfy ===
/**
 * app/api/users/route.ts: the credential server. The `users` table is a map
 * from the primary key `id` to its row. SHA-256 is the table's `hash`, a
 * function the model does not look inside, and every fresh session token
 * (32 random bytes in hex) is supplied by the caller.
 */
module UsersRoute {
  import opened Types
  import opened Strings

  datatype Row = Row(
    id: string,
    username: string,
    password: string,
    avatar: string,
    color: string,
    nameColor: Option<string>,
    credits: Option<int>,
    sessionToken: Option<string>)

  /** The JSON body's `action` with the fields that action reads. A string
      field missing from the body is the empty string; a missing login
      password is `None`, since hashing `undefined` throws. */
  datatype Request =
    | RegisterRequest(user: User)
    | LoginRequest(id: string, password: Option<string>)
    | VerifyRequest(id: string, token: string)
    | UpdateRequest(user: User)
    | OtherRequest(action: string)

  datatype Body = UserBody(user: User) | Ack | ErrorBody(message: string)

  datatype Response = Response(status: int, body: Body)

  const IdTooShortText: string := "ID quá ngắn (tối thiểu 5 ký tự)"
  const DuplicateIdText: string := "ID đã tồn tại"
  const UnknownAccountText: string := "Tài khoản không tồn tại"
  const WrongPasswordText: string := "Sai mật khẩu"
  const NoTokenText: string := "No token"
  const ExpiredText: string := "Phiên đăng nhập hết hạn"
  const InvalidActionText: string := "Invalid action"
  const ServerErrorText: string := "Server Error"

  /** What login and verify send back for a row: no password. */
  function PublicUser(row: Row, token: string): (u: User)
    ensures u.id == row.id && u.password == None && u.token == Some(token)
    ensures u.username == row.username && u.avatar == row.avatar && u.color == row.color
    ensures u.nameColor == row.nameColor && u.credits == row.credits
  {
    User(row.id, row.username, None, row.avatar, row.color, row.nameColor, row.credits, Some(token))
  }

  /** Every row is stored under its own id. */
  ghost predicate Keyed(rows: map<string, Row>) {
    forall k :: k in rows ==> rows[k].id == k
  }

  class UserTable {
    const hash: string -> string
    var rows: map<string, Row>

    ghost predicate Valid()
      reads this
    {
      Keyed(rows)
    }

    constructor (hash: string -> string)
      ensures Valid() && this.hash == hash && rows == map[]
    {
      this.hash := hash;
      rows := map[];
    }

    /** A session is accepted for `id` exactly when `token` is non-empty and
        is the token stored on that id's row. */
    predicate Verifies(id: string, token: string)
      reads this
    {
      token != "" && id in rows && rows[id].sessionToken == Some(token)
    }

    /** The row register inserts: the password hashed, the fresh token. */
    function Enrolled(user: User, password: string, token: string): (row: Row)
      ensures row.id == user.id && row.password == hash(password)
      ensures row.sessionToken == Some(token)
    {
      Row(user.id, user.username, hash(password), user.avatar, user.color,
          user.nameColor, user.credits, Some(token))
    }

    /** Login accepts the stored hash of the input or, for accounts from
        before hashing, the input itself. */
    predicate Accepts(stored: string, password: string) {
      stored == hash(password) || stored == password
    }

    /** `action: 'register'`; an id's length is counted in UTF-16 code units. */
    method Register(user: User, freshToken: string) returns (r: Response)
      requires Valid()
      modifies this`rows
      ensures Valid()
      ensures Utf16Length(user.id) < 5 ==> r == Response(400, ErrorBody(IdTooShortText)) && rows == old(rows)
      ensures Utf16Length(user.id) >= 5 && user.id in old(rows) ==>
                r == Response(400, ErrorBody(DuplicateIdText)) && rows == old(rows)
      ensures Utf16Length(user.id) >= 5 && user.id !in old(rows) && user.password == None ==>
                r == Response(500, ErrorBody(ServerErrorText)) && rows == old(rows)
      ensures Utf16Length(user.id) >= 5 && user.id !in old(rows) && user.password.Some? ==>
                && r == Response(200, UserBody(user.(password := Some(""), token := Some(freshToken))))
                && rows == old(rows)[user.id := Enrolled(user, user.password.value, freshToken)]
    {
      if Utf16Length(user.id) < 5 {
        return Response(400, ErrorBody(IdTooShortText));
      }
      if user.id in rows {
        return Response(400, ErrorBody(DuplicateIdText));
      }
      if user.password == None {
        // hashing an undefined password throws; the outer handler answers 500
        return Response(500, ErrorBody(ServerErrorText));
      }
      rows := rows[user.id := Enrolled(user, user.password.value, freshToken)];
      r := Response(200, UserBody(user.(password := Some(""), token := Some(freshToken))));
    }

    /**
     * `action: 'login'`. An accepted plain-text password is replaced by its
     * hash, and success rotates the session token. A missing password is
     * hashed only after the lookup, so it throws (500) for a known id.
     */
    method Login(id: string, password: Option<string>, freshToken: string) returns (r: Response)
      requires Valid()
      modifies this`rows
      ensures Valid()
      ensures id !in old(rows) ==>
                r == Response(404, ErrorBody(UnknownAccountText)) && rows == old(rows)
      ensures id in old(rows) && password == None ==>
                r == Response(500, ErrorBody(ServerErrorText)) && rows == old(rows)
      ensures id in old(rows) && password.Some? && !Accepts(old(rows)[id].password, password.value) ==>
                r == Response(401, ErrorBody(WrongPasswordText)) && rows == old(rows)
      ensures id in old(rows) && password.Some? && Accepts(old(rows)[id].password, password.value) ==>
                && r == Response(200, UserBody(PublicUser(old(rows)[id], freshToken)))
                && rows == old(rows)[id := old(rows)[id].(password := hash(password.value),
                                                          sessionToken := Some(freshToken))]
      // after success the credential is hashed and only the new token opens the session
      ensures r.status == 200 ==> password.Some? && id in rows && rows[id].password == hash(password.value)
      ensures r.status == 200 ==> forall t :: Verifies(id, t) <==> t == freshToken && t != ""
    {
      if id !in rows {
        return Response(404, ErrorBody(UnknownAccountText));
      }
      var found := rows[id];
      if password == None {
        return Response(500, ErrorBody(ServerErrorText));
      }
      var inputHash := hash(password.value);
      var isValid := found.password == inputHash;
      if !isValid && found.password == password.value {
        isValid := true;
        rows := rows[id := rows[id].(password := inputHash)];
      }
      if !isValid {
        return Response(401, ErrorBody(WrongPasswordText));
      }
      rows := rows[id := rows[id].(sessionToken := Some(freshToken))];
      r := Response(200, UserBody(PublicUser(found, freshToken)));
    }

    /** `action: 'verify'`: the session check; it changes nothing. */
    method Verify(id: string, token: string) returns (r: Response)
      requires Valid()
      ensures token == "" ==> r == Response(401, ErrorBody(NoTokenText))
      ensures token != "" && !Verifies(id, token) ==> r == Response(401, ErrorBody(ExpiredText))
      ensures r.status == 200 <==> Verifies(id, token)
      ensures r.status == 200 ==> r.body == UserBody(PublicUser(rows[id], token))
    {
      if token == "" {
        return Response(401, ErrorBody(NoTokenText));
      }
      if !(id in rows && rows[id].sessionToken == Some(token)) {
        return Response(401, ErrorBody(ExpiredText));
      }
      var found := rows[id];
      r := Response(200, UserBody(PublicUser(found, found.sessionToken.value)));
    }

    /** `action: 'update'`: profile fields only, without any token check. */
    method Update(user: User) returns (r: Response)
      requires Valid()
      modifies this`rows
      ensures Valid() && r == Response(200, Ack)
      ensures user.id !in old(rows) ==> rows == old(rows)
      ensures user.id in old(rows) ==>
                rows == old(rows)[user.id := old(rows)[user.id].(username := user.username,
                  avatar := user.avatar, nameColor := user.nameColor, credits := user.credits)]
    {
      if user.id in rows {
        rows := rows[user.id := rows[user.id].(username := user.username, avatar := user.avatar,
                                               nameColor := user.nameColor, credits := user.credits)];
      }
      r := Response(200, Ack);
    }

    /** `POST`: dispatch on the action, with each action's outcome;
        `freshToken` is used only by register and login. */
    method Post(req: Request, freshToken: string) returns (r: Response)
      requires Valid()
      modifies this`rows
      ensures Valid()
      ensures req.RegisterRequest? && Utf16Length(req.user.id) < 5 ==>
                r == Response(400, ErrorBody(IdTooShortText)) && rows == old(rows)
      ensures req.RegisterRequest? && Utf16Length(req.user.id) >= 5 && req.user.id in old(rows) ==>
                r == Response(400, ErrorBody(DuplicateIdText)) && rows == old(rows)
      ensures req.RegisterRequest? && Utf16Length(req.user.id) >= 5 && req.user.id !in old(rows) ==>
                && (req.user.password == None ==>
                      r == Response(500, ErrorBody(ServerErrorText)) && rows == old(rows))
                && (req.user.password.Some? ==>
                      && r == Response(200, UserBody(req.user.(password := Some(""), token := Some(freshToken))))
                      && rows == old(rows)[req.user.id := Enrolled(req.user, req.user.password.value, freshToken)])
      ensures req.LoginRequest? && req.id !in old(rows) ==>
                r == Response(404, ErrorBody(UnknownAccountText)) && rows == old(rows)
      ensures req.LoginRequest? && req.id in old(rows) && req.password == None ==>
                r == Response(500, ErrorBody(ServerErrorText)) && rows == old(rows)
      ensures req.LoginRequest? && req.id in old(rows) && req.password.Some? ==>
                if Accepts(old(rows)[req.id].password, req.password.value) then
                  && r == Response(200, UserBody(PublicUser(old(rows)[req.id], freshToken)))
                  && rows == old(rows)[req.id := old(rows)[req.id].(password := hash(req.password.value),
                                                                    sessionToken := Some(freshToken))]
                else
                  r == Response(401, ErrorBody(WrongPasswordText)) && rows == old(rows)
      ensures req.VerifyRequest? ==> rows == old(rows) && (r.status == 200 <==> Verifies(req.id, req.token))
      ensures req.UpdateRequest? ==> r == Response(200, Ack)
      ensures req.UpdateRequest? && req.user.id !in old(rows) ==> rows == old(rows)
      ensures req.UpdateRequest? && req.user.id in old(rows) ==>
                rows == old(rows)[req.user.id := old(rows)[req.user.id].(username := req.user.username,
                  avatar := req.user.avatar, nameColor := req.user.nameColor, credits := req.user.credits)]
      ensures req.OtherRequest? ==> r == Response(400, ErrorBody(InvalidActionText)) && rows == old(rows)
    {
      match req
      case RegisterRequest(user) => r := Register(user, freshToken);
      case LoginRequest(id, password) => r := Login(id, password, freshToken);
      case VerifyRequest(id, token) => r := Verify(id, token);
      case UpdateRequest(user) => r := Update(user);
      case OtherRequest(_) => r := Response(400, ErrorBody(InvalidActionText));
    }
  }
}
